=== FILE: README.md ===
# tg-tiktok-archive: the sync-and-relay core in Dafny

This project models the core of the TikTok-to-Telegram archive bot: the package
`internal/archive`. The archive keeps two keyed stores:
- `users`: a tag maps to a tracked user, with its TikTok id, its watermark and its Telegram destinations;
- `downloaded`: a post id maps to a post that was fetched but not yet relayed.

Every tick of the archive loop lists the tags. For each tag it runs two stages:
- the download stage (`DownloadUser`) resolves the user id and reads the feed
  newest first, down to the watermark. It fetches each new post's media and
  records the post as pending. Then it moves the watermark.
- the relay stage (`UploadTg`) runs only when the download succeeded. It walks
  every pending post, oldest first. It creates a forum topic for each destination
  that has none and sends the media. It deletes the pending entry once a
  destination has received it.

Alongside the loop, the Telegram commands `/info`, `/add`, `/bundle` and `/du`
read and change the same state.

The model is in layers:
- `records.dfy`: the records of `config.go`, and the invariants over the stores.
- `oracles.dfy`: every collaborator the core calls. These are the TikTok client,
  the downloader, the store writes and listings, the clock, the day formatting,
  the directory creation and Telegram. Each is a function of its arguments that
  answers success or failure. They are fields of one `Env` value.
- `paths.dfy`: the deterministic file names of a post's media.
- `sync.dfy`: `DownloadUser` as a function of the stores.
- `relay.dfy`: `UploadTg`, `uploadPost` and `uploadPostTo` as functions of the stores.
- `sweep.dfy`: one tick of `Start`.
- `commands.dfy`: the command handlers. This covers argument splitting, the admin
  filter, `/info`, `/add`, `/bundle`, the directory walk of `calcDirSize`, and the
  unit-scaling loop of `du`.
- `archive.dfy`: the archive as a class.
  - Its fields are the two stores.
  - Its methods update the stores step by step, as the Go methods do.
  - Each method is proved to end in exactly the state, and with exactly the error,
    that the corresponding function above describes.

Instants are integers, counted in nanoseconds since the Unix epoch. The zero
`time.Time` is January 1 of year 1. A post's creation time is in Unix seconds.

Behaviours of the code that the model keeps as they are:
- Every error in `DownloadUser` ends the scan at once, and the function returns
  it. This covers a feed error, a post with no media urls, a failed fetch and a
  failed store write.
- The watermark moves only when the whole scan succeeded. An aborted scan keeps
  the old watermark.
- A picture post is recorded with an empty file list. The picture loop fetches
  every url but never adds the paths to the entry, so relaying such a post sends
  nothing.
- The pending entry is deleted after the first destination that received the
  post. Later destinations still get the post, since the loop goes on with the
  entry it loaded.
- A post stamped exactly at the watermark is read again on the next scan. The
  scan stops only at posts strictly older than the watermark.
- A scan with nothing new still moves the watermark to the instant that scan
  started.
- `UploadTg` hands each failed upload to `newErrorId` and goes on with the next
  post. `newErrorId` is not part of this model.

## Model

| member | source | states |
|---|---|---|
| Paths.DecimalInjective | internal/archive/archive.go:182-194 | two different picture indices are written as two different numbers in the file name |
| Paths.Decimal | internal/archive/archive.go:182-194 | a picture index is written with at least one digit, and with exactly one exactly when it is below ten |
| Paths.PicturePathsDistinct | internal/archive/archive.go:182-194 | the pictures of one post, at two different indices, get two different paths, so none overwrites another |
| Paths.VideoIsNotPicture | internal/archive/archive.go:169-194 | a video path (`.mp4`) never equals a picture path (`.jpg`) |
| Paths.VideoPathInTagDir | internal/archive/archive.go:169-180 | a video is saved in its tag's directory, under a name ending in `.mp4` |
| Paths.PicturePathInTagDir | internal/archive/archive.go:182-194 | a picture is saved in its tag's directory, under a name ending in `.jpg` |
| Sync.PictureFetches | internal/archive/archive.go:141-148 | the picture loop makes one fetch per url when it succeeds, and at least one fetch when it fails, never more than there are urls |
| Sync.PictureFetchesInOrder | internal/archive/archive.go:141-148 | the picture loop fetches url i to the picture path of index i, in index order, at most one fetch per url |
| Sync.PictureFetchesSucceedIff | internal/archive/archive.go:141-148 | the picture loop succeeds exactly when it fetched every url and every fetch succeeded |
| Sync.PictureFetchesFailAtLast | internal/archive/archive.go:141-148 | when the picture loop fails, it stops at the failed fetch, and every fetch before it succeeded |
| Sync.EntryFor | internal/archive/archive.go:127-156 | a recorded entry carries the post's id, the tag, the post's kind and creation time. A video entry lists one file, and a picture entry lists none |
| Sync.EntryFileInTagDir | internal/archive/archive.go:127-134 | the file a video entry lists is in its tag's directory |
| Sync.VideoEntryIsFetched | internal/archive/archive.go:122-134 | the file a video entry lists is exactly the path its one fetch downloaded into |
| Sync.FetchPost | internal/archive/archive.go:122-148 | one post makes at least one fetch and at most one per url, each of one of its urls. A video makes one fetch, of its first url |
| Sync.FetchPostInTagDir | internal/archive/archive.go:122-148 | every file a post is fetched into is in its tag's directory |
| Sync.ScanFeed | internal/archive/archive.go:104-159 | the feed loop ends only with a feed error, a post without content, a failed fetch or a failed store write |
| Sync.ScanAbortsAtError | internal/archive/archive.go:104-158 | an error ends the scan: a feed that fails on a prefix gives the scan of that prefix, whatever follows it |
| Sync.ScanRecords | internal/archive/archive.go:111-158 | a scan keeps every pending entry it found. Every entry it writes is the entry of a post it read, stored under the post's id with the tag and creation time. A video's entry lists its one video path, and a picture post's entry lists no files |
| Sync.ScanKeepsWellFormed | internal/archive/archive.go:122-158 | a scan keeps the store invariant: each entry is stored under its own id, and each video entry has a file |
| Sync.ScanStopsAtOlderPost | internal/archive/archive.go:108-110 | the first post strictly older than the watermark, and everything after it, has no effect: the scan is the scan of the feed cut just before it |
| Sync.ScanKeepsEarlierWork | internal/archive/archive.go:104-158 | an error later in the feed undoes nothing. Every entry recorded and every fetch made for an earlier part of the feed is there in the whole scan |
| Sync.ScanRecordsEveryReachedPost | internal/archive/archive.go:104-159 | a scan without error records every post read before the watermark was reached |
| Sync.ZeroWatermarkReadsWholeFeed | internal/archive/archive.go:108-110 | with the zero watermark, a scan without error records every post of the feed |
| Sync.NothingNewRecordsNothing | internal/archive/archive.go:104-110 | when the feed is empty, or its newest post is older than the watermark, the scan records nothing and fetches nothing |
| Sync.SyncUser | internal/archive/archive.go:83-167 | only the scanned tag's user changes, and never its name or destinations. An unknown tag, or a failed lookup, changes no store, and a lookup fails only for a user without an id. A resolved id is kept, and a newly looked-up id whose write succeeds is the user's id afterwards. The watermark becomes the instant the scan started when the whole scan succeeded, and stays as it was on any error |
| Sync.SyncScansResolvedFeed | internal/archive/archive.go:83-167 | once the id is settled, the feed scanned is that id's: the pending store and the fetches are the scan's, a scan error is returned as is, and after a clean scan the user with the new watermark is written, or the write error returned |
| Sync.SyncResolvesIdBeforeFeed | internal/archive/archive.go:89-101 | for a user without an id, a failed write of the looked-up id changes no store, and a failed directory creation keeps the stored id but reads no feed. A scan result (success, a fetch, a recorded post or a scan error) happens only after the lookup, the id write and the directory creation all succeeded |
| Sync.MkdirOnlyForNewId | internal/archive/archive.go:89-100 | a directory-creation error happens only for a known user that had no id |
| Sync.SyncKeepsWellFormed | internal/archive/archive.go:83-167 | `DownloadUser` keeps the store invariant and every pending entry it found |
| Relay.SendDocumentsInOrder | internal/archive/archive_tg.go:117-122 | the files go out as documents in order, all to the one destination and thread, at most one send per file |
| Relay.SendDocumentsSucceedIff | internal/archive/archive_tg.go:117-122 | the document loop succeeds exactly when it sent every file and every send succeeded |
| Relay.SendDocumentsFailAtLast | internal/archive/archive_tg.go:117-122 | when the document loop fails, it stops at the failed send, and every send before it succeeded |
| Relay.SendDocuments | internal/archive/archive_tg.go:117-122 | the document loop sends one document per file when it succeeds, and at least one when it fails, never more than there are files |
| Relay.Deliver | internal/archive/archive_tg.go:109-125 | every send goes to the one destination and carries one of the post's files. A video is exactly one video send, of its first file. A post without files sends nothing and succeeds |
| Relay.SendAndDelete | internal/archive/archive_tg.go:88-95 | sending and deleting change neither the user nor the users store. At most one error is appended |
| Relay.DestStep | internal/archive/archive_tg.go:74-95 | one destination's turn keeps the user's name, id, watermark and number of destinations. It only appends sends, and it appends at most one error |
| Relay.DestStepTopic | internal/archive/archive_tg.go:74-86 | a destination that has a topic causes no topic creation and no user write. A failed topic creation skips the destination with an error. A new topic is stored with the user before anything is sent to it |
| Relay.DestStepWritesUser | internal/archive/archive_tg.go:80-83 | the only users-store write of a turn is the post's user with its new topic |
| Relay.DestStepKeepsTopics | internal/archive/archive_tg.go:74-86 | a turn keeps every destination's chat, and every topic already created |
| Relay.DestStepDeletesOnlyPost | internal/archive/archive_tg.go:92-95 | a turn deletes at most the post's own pending entry |
| Relay.DestStepDeletes | internal/archive/archive_tg.go:88-95 | the entry goes at this turn exactly when this destination received the post and the delete succeeded |
| Relay.DestStepSucceeds | internal/archive/archive_tg.go:74-95 | a turn adds no error exactly when its destination received the post and the delete succeeded |
| Relay.DestStepStaysAtJ | internal/archive/archive_tg.go:73-96 | a turn changes no other destination, and everything it sends goes to its own chat, in its (possibly new) topic |
| Relay.DestStepErrorAtJ | internal/archive/archive_tg.go:74-95 | every error a turn appends belongs to that turn's destination chat |
| Relay.Walk | internal/archive/archive_tg.go:73-96 | the destination loop keeps the user's name, id, watermark and number of destinations. It only appends errors, at most one per destination |
| Relay.AfterTurn | internal/archive/archive_tg.go:73-96 | the first j + 1 turns of the loop only append errors, at most one each |
| Relay.WalkErrorsGrow | internal/archive/archive_tg.go:73-96 | the errors after fewer turns are a prefix of the errors after more turns |
| Relay.WalkErrorsOfTurn | internal/archive/archive_tg.go:73-104 | the errors turn k appends stay at their places in the final list, after those of earlier turns, and each names destination k's chat |
| Relay.WalkKeepsTopics | internal/archive/archive_tg.go:73-96 | the destination loop keeps every destination and every topic it finds |
| Relay.TurnDeletesOnlyPost | internal/archive/archive_tg.go:92-95 | each turn of the loop deletes at most the post's own entry |
| Relay.WalkDeletesOnlyPost | internal/archive/archive_tg.go:73-96 | the whole destination loop deletes at most the post's own entry |
| Relay.RelayPost | internal/archive/archive_tg.go:66-107 | a post whose user cannot be loaded is neither sent nor deleted. Otherwise `uploadPost` deletes at most that post |
| Relay.TurnDeletes | internal/archive/archive_tg.go:88-95 | turn j deletes the entry exactly when destination j received the post and the delete succeeded |
| Relay.DeletedAfterAnyDelivery | internal/archive/archive_tg.go:88-95 | the entry is gone after the loop exactly when the delete succeeds and at least one destination received the post. One success is enough, whatever the others did |
| Relay.NoErrorsMeansAllDelivered | internal/archive/archive_tg.go:98-104 | a loop that added no error delivered to every destination, and every delete succeeded |
| Relay.AllDeliveredMeansNoErrors | internal/archive/archive_tg.go:98-104 | a loop that delivered to every destination, with every delete succeeding, added no error |
| Relay.NoErrorsIffAllDelivered | internal/archive/archive_tg.go:98-104 | `uploadPost` reports success exactly when every destination received the post and every delete succeeded |
| Relay.WalkSavesOnlyTopics | internal/archive/archive_tg.go:73-96 | the loop writes no user but the post's, and that user only as loaded with topics added where there were none |
| Relay.DestinationHandledOnce | internal/archive/archive_tg.go:73-96 | each destination is handled at its own turn only. Before the turn it is as loaded, and after it it stays as that turn left it, so a topic is created at most once per destination and post |
| Relay.RelayPostKeepsUsers | internal/archive/archive_tg.go:66-107 | `uploadPost` changes users only by adding topics |
| Relay.CompareByCreateTime | internal/archive/archive_tg.go:30-37 | the comparison is -1, 0 or 1. It is 0 exactly when either post cannot be loaded or both have the same creation time, negative only when the left post is strictly older, and positive only when it is strictly newer |
| Relay.Insert | internal/archive/archive_tg.go:30-37 | inserting an id gives a reordering of the list with that id added |
| Relay.SortByCreateTime | internal/archive/archive_tg.go:30-37 | the sort reorders the ids, losing and duplicating none |
| Relay.InsertSorted | internal/archive/archive_tg.go:30-37 | inserting into an oldest-first list keeps it oldest first |
| Relay.SortIsOldestFirst | internal/archive/archive_tg.go:30-37 | when every id can be loaded, the order `UploadTg` works in is ascending creation time |
| Relay.RelayFrom | internal/archive/archive_tg.go:39-48 | the loop creates and changes no entry. Only the ids it visits can go |
| Relay.RelayFromKeepsUsers | internal/archive/archive_tg.go:39-48 | the loop changes users only by adding topics |
| Relay.RelayFromVisitsAll | internal/archive/archive_tg.go:39-50 | over a listing of pending ids without repeats, the loop reaches every id and ends without error, whatever the uploads return |
| Relay.ReadyKept | internal/archive/archive_tg.go:73-86 | adding topics to users keeps a post ready: the destination that accepts it keeps its chat and topic |
| Relay.RelayPostDeletesReady | internal/archive/archive_tg.go:66-107 | `uploadPost` of a post whose user has a destination with a topic that accepts every send, and whose delete succeeds, removes the pending entry |
| Relay.RelayFromDeliversReadyPosts | internal/archive/archive_tg.go:39-48 | over a listing of pending ids without repeats, every post ready when the loop starts is uploaded and deleted, whatever the uploads of the other posts did |
| Relay.UploadTgVisitsEveryPost | internal/archive/archive_tg.go:25-50 | with an exact keys snapshot, `UploadTg` works through every pending post, oldest first, and returns no error whatever the uploads do. Every post ready at the start is uploaded and its entry deleted |
| Relay.RelayAll | internal/archive/archive_tg.go:20-51 | `UploadTg` fails with the snapshot error exactly when the keys snapshot fails, and then changes nothing. It never creates or changes an entry, and any other error names an id of the snapshot |
| Relay.RelayAllKeepsUsers | internal/archive/archive_tg.go:20-51 | `UploadTg` changes users only by adding topics, and keeps the store invariant |
| Sweep.SyncKeepsUsers | internal/archive/archive.go:83-167 | `DownloadUser` keeps every user's key, name, destinations and topics |
| Sweep.SweepTag | internal/archive/archive.go:68-77 | one turn of the tag loop reports on its own tag and keeps the store invariant |
| Sweep.SweepTagSkipsRelayOnFailure | internal/archive/archive.go:69-72 | a tag is reported as failed exactly when its sync failed, with that error. Its relay is skipped: nothing is sent, and the sync's partial effects stay |
| Sweep.SweepTagRelaysOnSuccess | internal/archive/archive.go:69-76 | after a successful sync the turn is `UploadTg` on the synced stores: its stores, sends and error, with the sync's fetches |
| Sweep.SweepTagRelaysEveryPending | internal/archive/archive.go:69-76 | with an exact keys snapshot, a successful sync is followed by an upload over every pending post, oldest first, and the tag is reported as synced without error. Every post ready after the sync, old or newly recorded, is uploaded and its entry deleted |
| Sweep.SweepTagKeepsUsers | internal/archive/archive.go:68-77 | the turn keeps every user's key, name, destinations and topics, and every other user's id and watermark. A synced tag's watermark is the scan's start, and a failed tag's is unchanged |
| Sweep.SweepTags | internal/archive/archive.go:68-77 | every tag gets one report, in order: no failure stops the loop |
| Sweep.SweepKeepsUsers | internal/archive/archive.go:68-77 | no user loses its name, destinations or topics in the tag loop |
| Sweep.Tick | internal/archive/archive.go:62-77 | a failed keys snapshot skips the tick and touches nothing. Otherwise every listed tag gets its turn and its report |
| Sweep.TickKeepsUsers | internal/archive/archive.go:62-77 | no user loses its name, destinations or topics in a tick |
| Sweep.SweepLeavesOthers | internal/archive/archive.go:68-77 | a tag the loop does not visit keeps its id and watermark |
| Sweep.FirstTagWatermark | internal/archive/archive.go:68-77 | the first tag's watermark after the pass is the one its own turn set |
| Sweep.SweepWatermarks | internal/archive/archive.go:68-77 | after a pass over tags without repeats, each tag's watermark is its scan's start if its sync succeeded, and the old one if it failed. Relays and later tags do not move it |
| Commands.Split | internal/archive/archive_tg_cmd.go:20 | splitting on a space gives at least one piece, none containing a space |
| Commands.JoinSplit | internal/archive/archive_tg_cmd.go:20 | splitting loses nothing: joining the pieces with spaces gives the text back |
| Commands.SplitJoin | internal/archive/archive_tg_cmd.go:20 | words without spaces come back from the text they were joined into |
| Commands.SplitCount | internal/archive/archive_tg_cmd.go:20-21 | there is one piece more than there are spaces, so the arity guards count spaces |
| Commands.Dispatch | internal/archive/archive_tg.go:53-64 | a command reaches its handler only when the handler is registered in the chain |
| Commands.DispatchPassesFilter | internal/archive/archive_tg.go:59 | a command whose handler is registered after a filter, and not before it, reaches that handler only when the update passes the filter |
| Commands.DispatchReaches | internal/archive/archive_tg.go:53-64 | a registered handler is reached when the update passes every filter registered before it |
| Commands.StartBotAdmitsAdminsOnly | internal/archive/archive_tg.go:53-64 | in the registration order of `StartBot`, `/start` and `/info` are reached by anyone, and `/add`, `/bundle` and `/du` are reached exactly when the message's sender is a configured admin |
| Commands.Info | internal/archive/archive_tg_cmd.go:17-50 | `/info` answers with usage exactly when the text does not have exactly one space. Otherwise it looks up the argument after that space, and answers with the failure or with the id the lookup gave |
| Commands.Add | internal/archive/archive_tg_cmd.go:52-94 | `/add` answers with usage exactly when the text does not have exactly two spaces. With two spaces, the second argument is looked up: the lookup failure is answered exactly when the lookup fails, the store error exactly when writing the new record under the first argument fails, and the user is registered exactly when both succeed. Only a registration changes the store, and it replaces any record under the tag with the looked-up id, one destination (the invoking chat, no topic) and the zero watermark |
| Commands.NewUser | internal/archive/archive_tg_cmd.go:72-79 | the registered record has the given name and the looked-up id, one destination (the invoking chat, no topic) and a watermark that no post dated year 1 or later is before |
| Commands.RegisteredUserSyncsWholeFeed | internal/archive/archive_tg_cmd.go:72-79 | after `/add`, the first sync that succeeds records every post of the new user's feed |
| Commands.Bundle | internal/archive/archive_tg_cmd.go:96-138 | `/bundle` needs exactly one argument. A tag not in the store is answered "not found" and nothing is sent. A known tag's data directory is sent, named after the tag and the day |
| Commands.BundleApologizes | internal/archive/archive_tg_cmd.go:98-102 | the "unexpected error" reply goes out exactly when a well-formed command cannot read the store, or the send of a known tag's directory fails |
| Commands.ReadablePrefix | internal/archive/archive_tg_cmd.go:166-183 | the walk gets through exactly the entries before the first one the callback cannot read |
| Commands.SumOfFiles | internal/archive/archive_tg_cmd.go:166-183 | the sum is at least the size counted for each entry, so no file makes it smaller |
| Commands.SumOfFilesAppend | internal/archive/archive_tg_cmd.go:166-183 | the sizes of the parts of a walk add up |
| Commands.DirectoriesWeighNothing | internal/archive/archive_tg_cmd.go:172-174 | directories contribute nothing: a walk of directories only sums to zero |
| Commands.CalcDirSize | internal/archive/archive_tg_cmd.go:166-183 | `calcDirSize` fails exactly when some entry cannot be read. It returns the sum of the file sizes before that entry |
| Commands.DuOf | internal/archive/archive_tg_cmd.go:185-202 | `du` prints the error marker exactly when the walk cannot read every entry. A printed size is the sum of the file sizes, with a unit from the unit table |
| Commands.ScaledDivisor | internal/archive/archive_tg_cmd.go:191-198 | on exit the divisor is 1024^exp and the scaled value is at most 1024. Exactly the sizes above 1024 are scaled; any other, zero and negative included, keeps exp 0, divisor 1 and its own value |
| Commands.Scaled | internal/archive/archive_tg_cmd.go:191-198 | the scaled value is at most 1024 and the divisor at least 1 |
| Commands.ScaledRange | internal/archive/archive_tg_cmd.go:191-198 | exp is the least exponent with size < 1025 times 1024^exp |
| Commands.ScaledQuotient | internal/archive/archive_tg_cmd.go:191-198 | for a positive size, the scaled value is the size divided by the divisor, rounded down |
| Commands.ScaledMeaning | internal/archive/archive_tg_cmd.go:191-198 | all of the above, of the loop's final state |
| Commands.OutOfUnitsIff | internal/archive/archive_tg_cmd.go:191-201 | the unit index is out of range, so `du` panics, exactly for sizes of at least 1025 times 1024^5 |
| Commands.ScaleSize | internal/archive/archive_tg_cmd.go:191-198 | the loop of `du` ends in the state `Scaled` describes |
| Commands.Du | internal/archive/archive_tg_cmd.go:185-202 | `du` prints the error marker, the size with its divisor and unit, or panics, as `DuOf` says |
| Commands.DuMeaning | internal/archive/archive_tg_cmd.go:185-202 | for a readable walk, `du` prints the total with the smallest unit for which the total is below 1025 times its divisor. It panics exactly when the total is at least 1025 times 1024^5 |
| Commands.DuLines | internal/archive/archive_tg_cmd.go:146-153 | every line of the `/du` reply names a listed entry other than `.DS_Store`, with `du` of its own directory |
| Commands.DuLinesCoverListing | internal/archive/archive_tg_cmd.go:146-153 | every listed entry other than `.DS_Store` has a line in the reply |
| Commands.DuReport | internal/archive/archive_tg_cmd.go:140-164 | nothing is reported when the data directory cannot be listed. Otherwise the lines are `DuLines` of the listing |
| Archive.FetchPictures | internal/archive/archive.go:141-148 | the picture loop makes exactly the fetches of `PictureFetches`, with its outcome |
| Archive.UploadPostTo | internal/archive/archive_tg.go:109-125 | `uploadPostTo` makes exactly the sends of `Deliver`, with its outcome |
| Archive.Archive.DownloadFeed | internal/archive/archive.go:104-159 | the feed loop leaves the pending store, the fetches and the error of `ScanFeed`, and does not touch users |
| Archive.Archive.DownloadPost | internal/archive/archive.go:122-148 | one post's downloads are exactly those of `FetchPost` |
| Archive.Archive.DownloadUser | internal/archive/archive.go:83-167 | `DownloadUser` leaves both stores, the fetches and the error that `SyncUser` describes, and keeps the store invariant |
| Archive.Archive.UploadPost | internal/archive/archive_tg.go:66-107 | `uploadPost` leaves both stores, the sends and the error that `RelayPost` describes, and keeps the store invariant |
| Archive.Archive.UploadInOrder | internal/archive/archive_tg.go:39-50 | the loop of `UploadTg` ends in the state of `RelayFrom` |
| Archive.Archive.UploadTg | internal/archive/archive_tg.go:20-51 | `UploadTg` leaves both stores, the sends and the error that `RelayAll` describes |
| Archive.Archive.Tick | internal/archive/archive.go:61-78 | one tick leaves both stores, the fetches, sends and reports that `Sweep.Tick` describes |
| Archive.Archive.SweepTags | internal/archive/archive.go:68-77 | the tag loop ends in the state of `Sweep.SweepTags` |
| Archive.Archive.SweepTag | internal/archive/archive.go:69-76 | one tag's turn ends in the state of `Sweep.SweepTag` |
| Archive.Archive.AddUser | internal/archive/archive_tg_cmd.go:52-94 | `/add` leaves the users store and the reply that `Commands.Add` describes, and does not touch the pending store |

## Left out

- Collaborators are deterministic functions of their arguments. The TikTok
  client, the downloader, Telegram, the stores' writes and listings, and the
  clock are each modelled this way. A collaborator that answers differently on a
  second call with the same arguments is not modelled.
- The stores are maps of values. The Go code loads a user as a pointer and
  changes it in place. A cached record that changed even though its store write
  failed is not modelled. Read errors of `Get` beyond a missing key are not
  modelled either.
- Store listings are collaborators. A listing that misses or repeats a key can be
  modelled, and the lemmas that need an exact listing say so.
- `Relay.SortByCreateTime`: the order is an insertion sort, not pattern-defeating
  quicksort. Sortedness and the permutation are proved, but the order of posts
  with equal creation times may differ from the Go sort's. When some post cannot
  be loaded, only the permutation is stated.
- `DownloadAt` is not modelled. It is written but never read.
- `newErrorId` is not part of this model. It records a failed upload, and its
  definition is not in the files modelled.
- `path.Join` is modelled as plain concatenation with `/`. Cleaning of `..`,
  double separators and empty parts is not modelled.
- Dates (`time.DateOnly`) are a collaborator. `time.Now` is a collaborator for the
  watermark, and a parameter for `/bundle`.
- The random sleep between picture fetches, all logging, the ticker, the
  infinite loop and the concurrent bot are not modelled. One tick is one call,
  and each command handler is one atomic call.
- Floating-point formatting (`%.2f`) in `du` is not modelled. The model keeps the
  size, the divisor and the unit.
- Integer widths (`int64`) are not modelled. Sizes, creation times and ids are
  unbounded integers, so `size` overflowing in `calcDirSize` is not captured.
- `os.MkdirAll`, `os.ReadDir` and `filepath.WalkDir` are given as inputs. The
  walk is a list of entries, and the listing is an optional list of names.
- `Commands.Info`: the reply texts, the follower and video counts, and the
  delivery of replies are not modelled. Replies are assumed sent, and a failed
  reply send, which the handlers return as their error, is not modelled.
- `Commands.Bundle`: the "packing.." progress message and its deletion are not
  modelled. They are assumed to succeed, so a failed progress message, which
  ends the handler with an error, is not captured.
- `Commands.Split`: `strings.Split` on a single space is modelled directly.
  Command routing, and how the library parses `/cmd@bot`, are not modelled.
- `New` is not modelled: opening the stores and loading the configuration.
  cmd/main.go is not part of this model either.
- `/start` is not modelled beyond being admitted for everyone. Its reply is a
  fixed text.
- The second, identical `onAdmin` in `internal/archive/archive_tg.go:127-129` is
  modelled once, as `Commands.OnAdmin`.
- `Relay.DeletedAfterAnyDelivery`: the delete of the pending store answers by
  post id alone, whether or not the entry is still present. A second `Del` of an
  entry an earlier destination already deleted therefore answers as the first
  did. A store whose delete fails on a missing key is not modelled.
- `Relay.NoErrorsIffAllDelivered`: rests on the same delete, which answers by
  post id alone. With a store that rejects deleting a missing key, a post sent
  to two destinations would always report an error, and this is not captured.
- `Relay.DestStepTopic`: topic creation answers by chat and tag alone, and
  creations are not recorded. Creating a topic again for the same chat and tag
  gives the same thread id, so duplicate topics left by a failed user write are
  not captured.
- `Archive.Archive.constructor`: the model assumes every video entry of the
  initial pending store lists a file (`WellFormed`). The index panic of
  `uploadPostTo` (archive_tg.go:111) on a store loaded with a video entry
  without files is not modelled.
- `Commands.Dispatch`: the command chain of the Telegram library is taken to
  guard every handler registered after a filter with that filter, and to try
  the handlers in registration order. The library itself is not part of this
  model.
- `Relay.RelayFromDeliversReadyPosts`: states which posts the loop surely removes,
  those ready when the loop starts. A post that becomes deliverable only through a
  topic created during the loop may be removed too. For one post, the exact
  condition is `Relay.DeletedAfterAnyDelivery`.

=== FILE: archive.dfy ===
/**
 * The archive as the program runs it: an object holding the two stores, whose
 * methods (`DownloadUser`, `UploadTg`, `uploadPost`, one tick of `Start`, the
 * store write of `/add`) update them step by step, each proved to end in the
 * state the functions of `Sync`, `Relay`, `Sweep` and `Commands` describe.
 */
module Archive {
  import opened Wrappers
  import opened Records
  import opened Oracles
  import opened Paths
  import opened Sync
  import opened Relay
  import Sweep
  import Commands

  /** The picture loop that has made the fetches `done` and has `rest` still to do. */
  function ThenFetch(done: seq<Fetch>, rest: (seq<Fetch>, bool)): (seq<Fetch>, bool) {
    (done + rest.0, rest.1)
  }

  /** One turn of the picture loop: a successful fetch, then the next index. */
  lemma ThenFetchStep(env: Env, name: PostName, urls: seq<string>, i: nat, done: seq<Fetch>)
    requires i < |urls| && env.fetch(Fetch(PicturePath(name, i), urls[i]))
    ensures ThenFetch(done, PictureFetches(env, name, urls, i))
            == ThenFetch(done + [Fetch(PicturePath(name, i), urls[i])], PictureFetches(env, name, urls, i + 1))
  {
    var f := Fetch(PicturePath(name, i), urls[i]);
    var rest := PictureFetches(env, name, urls, i + 1);
    assert done + ([f] + rest.0) == (done + [f]) + rest.0;
  }

  /** The picture loop of `DownloadUser`: fetch each url in index order, stop at the first failure. */
  method FetchPictures(env: Env, name: PostName, urls: seq<string>) returns (fetches: seq<Fetch>, ok: bool)
    ensures (fetches, ok) == PictureFetches(env, name, urls, 0)
  {
    fetches := [];
    var i := 0;
    assert [] + PictureFetches(env, name, urls, 0).0 == PictureFetches(env, name, urls, 0).0;
    while i < |urls|
      invariant i <= |urls|
      invariant PictureFetches(env, name, urls, 0) == ThenFetch(fetches, PictureFetches(env, name, urls, i))
    {
      var f := Fetch(PicturePath(name, i), urls[i]);
      if !env.fetch(f) {
        return fetches + [f], false;
      }
      ThenFetchStep(env, name, urls, i, fetches);
      fetches := fetches + [f];
      i := i + 1;
    }
    assert fetches + [] == fetches;
    ok := true;
  }

  /** `uploadPostTo`: a video as one video message, any other post as its files, one document each. */
  method UploadPostTo(env: Env, post: DownloadedPost, chat: int, thread: int) returns (sends: seq<Send>, ok: bool)
    requires post.isVideo ==> post.files != []
    ensures (sends, ok) == Deliver(env, post, chat, thread)
  {
    if post.isVideo {
      var s := Send(chat, thread, post.files[0], true);
      return [s], env.send(s);
    }
    sends := [];
    var i := 0;
    assert post.files[0..] == post.files;
    assert sends + SendDocuments(env, chat, thread, post.files).0 == SendDocuments(env, chat, thread, post.files).0;
    while i < |post.files|
      invariant i <= |post.files|
      invariant SendDocuments(env, chat, thread, post.files).0 == sends + SendDocuments(env, chat, thread, post.files[i..]).0
      invariant SendDocuments(env, chat, thread, post.files).1 == SendDocuments(env, chat, thread, post.files[i..]).1
    {
      assert post.files[i..][1..] == post.files[i + 1..];
      var s := Send(chat, thread, post.files[i], false);
      var rest := SendDocuments(env, chat, thread, post.files[i + 1..]);
      assert env.send(s) ==> SendDocuments(env, chat, thread, post.files[i..]).0 == [s] + rest.0;
      assert sends + ([s] + rest.0) == (sends + [s]) + rest.0;
      sends := sends + [s];
      if !env.send(s) {
        return sends, false;
      }
      i := i + 1;
    }
    assert post.files[i..] == [];
    assert sends + [] == sends;
    ok := true;
    assert (sends, ok) == SendDocuments(env, chat, thread, post.files);
  }

  /** The loop of `UploadTg` that has made the sends `done` and has `rest` still to do. */
  function Resume(rest: Relay, done: seq<Send>): Relay {
    Relay(rest.users, rest.downloaded, done + rest.sends, rest.failure)
  }

  /** One turn of the loop of `UploadTg`: upload the first id, then go on with the rest. */
  lemma ResumeStep(env: Env, order: seq<string>, users: map<string, User>, d: map<string, DownloadedPost>, done: seq<Send>)
    requires WellFormed(d) && order != [] && order[0] in d
    ensures var u := RelayPost(env, users, d, d[order[0]]);
      Resume(RelayFrom(env, order, users, d), done) == Resume(RelayFrom(env, order[1..], u.users, u.downloaded), done + u.sends)
  {
    var u := RelayPost(env, users, d, d[order[0]]);
    var rest := RelayFrom(env, order[1..], u.users, u.downloaded);
    var whole := RelayFrom(env, order, users, d);
    assert whole == Relay(rest.users, rest.downloaded, u.sends + rest.sends, rest.failure);
    assert done + (u.sends + rest.sends) == (done + u.sends) + rest.sends;
  }

  /** The tag loop of `Start` that has made `fetches` and `sends`, and reported `reports`, with `rest` still to do. */
  function ResumePass(rest: Sweep.Pass, fetches: seq<Fetch>, sends: seq<Send>, reports: seq<Sweep.TagReport>): Sweep.Pass {
    Sweep.Pass(rest.users, rest.downloaded, fetches + rest.fetches, sends + rest.sends, reports + rest.reports, rest.snapshotFailed)
  }

  lemma AppendAssociates<T>(a: seq<T>, b: seq<T>, c: seq<T>)
    ensures a + (b + c) == (a + b) + c
  {
  }

  /** One turn of the tag loop of `Start`: the first tag's turn, then the rest. */
  lemma ResumePassStep(cfg: Config, env: Env, tags: seq<string>, users: map<string, User>, d: map<string, DownloadedPost>,
                       fetches: seq<Fetch>, sends: seq<Send>, reports: seq<Sweep.TagReport>)
    requires WellFormed(d) && tags != []
    ensures var t := Sweep.SweepTag(cfg, env, tags[0], users, d);
      ResumePass(Sweep.SweepTags(cfg, env, tags, users, d), fetches, sends, reports)
      == ResumePass(Sweep.SweepTags(cfg, env, tags[1..], t.users, t.downloaded), fetches + t.fetches, sends + t.sends, reports + [t.report])
  {
    var t := Sweep.SweepTag(cfg, env, tags[0], users, d);
    var rest := Sweep.SweepTags(cfg, env, tags[1..], t.users, t.downloaded);
    Sweep.SweepTagsCons(cfg, env, tags, users, d);
    AppendAssociates(fetches, t.fetches, rest.fetches);
    AppendAssociates(sends, t.sends, rest.sends);
    AppendAssociates(reports, [t.report], rest.reports);
  }

  class Archive {
    /** The configuration: data directory and admins. */
    const cfg: Config
    /** The users store: tag to user. */
    var users: map<string, User>
    /** The pending-post store: post id to downloaded post. */
    var downloaded: map<string, DownloadedPost>

    ghost predicate Valid()
      reads this
    {
      WellFormed(downloaded)
    }

    constructor(cfg: Config, users: map<string, User>, downloaded: map<string, DownloadedPost>)
      requires WellFormed(downloaded)
      ensures Valid()
      ensures this.cfg == cfg && this.users == users && this.downloaded == downloaded
    {
      this.cfg := cfg;
      this.users := users;
      this.downloaded := downloaded;
    }

    /** The feed loop of `DownloadUser` for `user`, stored under `tag`, over the feed `items`. */
    method DownloadFeed(env: Env, tag: string, user: User, items: seq<FeedItem>) returns (fetches: seq<Fetch>, err: Option<SyncError>)
      modifies this
      ensures var r := ScanFeed(cfg, env, tag, user, items, old(downloaded));
        downloaded == r.downloaded && fetches == r.fetches && err == r.failure
      ensures users == old(users)
    {
      ghost var d0 := downloaded;
      fetches := [];
      var i := 0;
      assert items[0..] == items;
      while i < |items|
        invariant i <= |items| && users == old(users)
        invariant ScanFeed(cfg, env, tag, user, items, d0).downloaded == ScanFeed(cfg, env, tag, user, items[i..], downloaded).downloaded
        invariant ScanFeed(cfg, env, tag, user, items, d0).fetches == fetches + ScanFeed(cfg, env, tag, user, items[i..], downloaded).fetches
        invariant ScanFeed(cfg, env, tag, user, items, d0).failure == ScanFeed(cfg, env, tag, user, items[i..], downloaded).failure
      {
        assert items[i..][0] == items[i] && items[i..][1..] == items[i + 1..];
        if items[i].Fault? {
          assert fetches + [] == fetches;
          return fetches, Some(FeedFailed);
        }
        var post := items[i].post;
        if Before(post.createTime, user.lastUpdate) {
          assert fetches + [] == fetches;
          return fetches, None;
        }
        if post.urls == [] {
          assert fetches + [] == fetches;
          return fetches, Some(MissingContent(post.id));
        }
        var got, ok := DownloadPost(env, tag, user.username, post);
        var entry := EntryFor(cfg, env, tag, user.username, post);
        if !ok {
          return fetches + got, Some(FetchFailed(post.id));
        }
        if !env.putPost(post.id, entry) {
          return fetches + got, Some(PostWriteFailed(post.id));
        }
        ghost var rest := ScanFeed(cfg, env, tag, user, items[i + 1..], downloaded[post.id := entry]);
        assert fetches + (got + rest.fetches) == (fetches + got) + rest.fetches;
        fetches := fetches + got;
        downloaded := downloaded[post.id := entry];
        i := i + 1;
      }
      assert items[i..] == [];
      assert fetches + [] == fetches;
      err := None;
    }

    /** The downloads of one post: its video, or each picture in turn. */
    method DownloadPost(env: Env, tag: string, username: string, post: Post) returns (fetches: seq<Fetch>, ok: bool)
      requires post.urls != []
      ensures (fetches, ok) == FetchPost(cfg, env, tag, username, post)
    {
      var name := NameOf(cfg, env, tag, username, post);
      if post.isVideo {
        var f := Fetch(VideoPath(name), post.urls[0]);
        return [f], env.fetch(f);
      }
      fetches, ok := FetchPictures(env, name, post.urls);
    }

    /** `DownloadUser(tag)`: the fetches it makes and the error it returns. */
    method DownloadUser(env: Env, tag: string) returns (fetches: seq<Fetch>, err: Option<SyncError>)
      requires Valid()
      modifies this
      ensures Valid()
      ensures var r := SyncUser(cfg, env, old(users), old(downloaded), tag);
        users == r.users && downloaded == r.downloaded && fetches == r.fetches && err == r.failure
    {
      SyncKeepsWellFormed(cfg, env, users, downloaded, tag);
      if tag !in users {
        return [], Some(UserMissing);
      }
      var user := users[tag];
      if user.id == "" {
        var details := env.details(user.username);
        if details.None? {
          return [], Some(LookupFailed);
        }
        user := user.(id := details.value);
        if !env.putUser(tag, user) {
          return [], Some(UserWriteFailed);
        }
        users := users[tag := user];
        if !env.mkdir(TagDir(cfg.data, tag)) {
          return [], Some(MkdirFailed);
        }
      }
      var lastUpdate := env.clock(tag);
      fetches, err := DownloadFeed(env, tag, user, env.feed(user.id));
      if err.Some? {
        return;
      }
      var done := user.(lastUpdate := lastUpdate);
      if !env.putUser(tag, done) {
        return fetches, Some(UserWriteFailed);
      }
      users := users[tag := done];
    }

    /** `uploadPost(post)`: the sends it makes and the error it returns. */
    method UploadPost(env: Env, post: DownloadedPost) returns (sends: seq<Send>, err: Option<UploadError>)
      requires Valid()
      requires post.isVideo ==> post.files != []
      modifies this
      ensures Valid()
      ensures var r := RelayPost(env, old(users), old(downloaded), post);
        users == r.users && downloaded == r.downloaded && sends == r.sends && err == r.failure
    {
      if post.tag !in users {
        return [], Some(NoUser(post.tag));
      }
      var user := users[post.tag];
      ghost var s0 := Start(users, downloaded, post);
      ghost var d0 := downloaded;
      var errs: seq<DestError> := [];
      sends := [];
      var j := 0;
      while j < |user.tg|
        invariant |user.tg| == |s0.user.tg| && j <= |user.tg|
        invariant Upload(user, users, downloaded, sends, errs) == Walk(env, post, s0, j)
        invariant WellFormed(downloaded)
      {
        var target := user.tg[j];
        var thread := target.threadId;
        var ready := true;
        if thread == 0 {
          var topic := env.createTopic(target.chatId, post.tag);
          if topic.None? {
            errs := errs + [TopicFailed(target.chatId)];
            ready := false;
          } else {
            thread := topic.value;
            user := user.(tg := user.tg[j := UserTg(target.chatId, thread)]);
            if !env.putUser(post.tag, user) {
              errs := errs + [TopicNotSaved(target.chatId)];
              ready := false;
            } else {
              users := users[post.tag := user];
            }
          }
        }
        if ready {
          var out, ok := UploadPostTo(env, post, target.chatId, thread);
          sends := sends + out;
          if !ok {
            errs := errs + [SendFailed(target.chatId)];
          } else if !env.delPost(post.id) {
            errs := errs + [DeleteFailed(target.chatId)];
          } else {
            downloaded := downloaded - {post.id};
          }
        }
        j := j + 1;
      }
      err := if errs == [] then None else Some(Failed(errs));
    }

    /** The loop of `UploadTg` over the sorted ids `order`. */
    method UploadInOrder(env: Env, order: seq<string>) returns (sends: seq<Send>, err: Option<RelayFailure>)
      requires Valid()
      modifies this
      ensures Valid()
      ensures var r := RelayFrom(env, order, old(users), old(downloaded));
        users == r.users && downloaded == r.downloaded && sends == r.sends && err == r.failure
    {
      ghost var u0, d0 := users, downloaded;
      sends := [];
      var i := 0;
      assert order[0..] == order;
      while i < |order|
        invariant i <= |order|
        invariant Valid()
        invariant RelayFrom(env, order, u0, d0) == Resume(RelayFrom(env, order[i..], users, downloaded), sends)
      {
        assert order[i..][0] == order[i] && order[i..][1..] == order[i + 1..];
        var id := order[i];
        if id !in downloaded {
          assert RelayFrom(env, order[i..], users, downloaded) == Relay(users, downloaded, [], Some(PostMissing(id)));
          assert sends + [] == sends;
          return sends, Some(PostMissing(id));
        }
        ghost var u, d := users, downloaded;
        var out, _ := UploadPost(env, downloaded[id]);
        ResumeStep(env, order[i..], u, d, sends);
        sends := sends + out;
        i := i + 1;
      }
      assert order[i..] == [];
      assert sends + [] == sends;
      err := None;
    }

    /** `UploadTg()`: the sends it makes and the error it returns. */
    method UploadTg(env: Env) returns (sends: seq<Send>, err: Option<RelayFailure>)
      requires Valid()
      modifies this
      ensures Valid()
      ensures var r := RelayAll(env, old(users), old(downloaded));
        users == r.users && downloaded == r.downloaded && sends == r.sends && err == r.failure
    {
      var listing := env.postKeys(downloaded.Keys);
      if listing.None? {
        return [], Some(SnapshotFailed);
      }
      var order := SortByCreateTime(downloaded, listing.value);
      sends, err := UploadInOrder(env, order);
    }

    /** One tick of `Start`: the fetches and sends it makes, one report per tag, and whether the snapshot failed. */
    method Tick(env: Env) returns (fetches: seq<Fetch>, sends: seq<Send>, reports: seq<Sweep.TagReport>, snapshotFailed: bool)
      requires Valid()
      modifies this
      ensures Valid()
      ensures Sweep.Tick(cfg, env, old(users), old(downloaded)) == Sweep.Pass(users, downloaded, fetches, sends, reports, snapshotFailed)
    {
      var listing := env.userKeys(users.Keys);
      if listing.None? {
        return [], [], [], true;
      }
      fetches, sends, reports := SweepTags(env, listing.value);
      snapshotFailed := false;
    }

    /** The tag loop of `Start` over `tags`: no tag's failure stops it. */
    method SweepTags(env: Env, tags: seq<string>) returns (fetches: seq<Fetch>, sends: seq<Send>, reports: seq<Sweep.TagReport>)
      requires Valid()
      modifies this
      ensures Valid()
      ensures Sweep.SweepTags(cfg, env, tags, old(users), old(downloaded)) == Sweep.Pass(users, downloaded, fetches, sends, reports, false)
    {
      ghost var u0, d0 := users, downloaded;
      fetches, sends, reports := [], [], [];
      var i := 0;
      ghost var whole := Sweep.SweepTags(cfg, env, tags, u0, d0);
      assert tags[0..] == tags;
      assert [] + whole.fetches == whole.fetches && [] + whole.sends == whole.sends && [] + whole.reports == whole.reports;
      while i < |tags|
        invariant i <= |tags|
        invariant Valid()
        invariant whole == ResumePass(Sweep.SweepTags(cfg, env, tags[i..], users, downloaded), fetches, sends, reports)
      {
        assert tags[i..][0] == tags[i] && tags[i..][1..] == tags[i + 1..];
        var tag := tags[i];
        ghost var u, d := users, downloaded;
        var got, out, report := SweepTag(env, tag);
        ResumePassStep(cfg, env, tags[i..], u, d, fetches, sends, reports);
        fetches, sends, reports := fetches + got, sends + out, reports + [report];
        i := i + 1;
      }
      assert tags[i..] == [];
      assert fetches + [] == fetches && sends + [] == sends && reports + [] == reports;
    }

    /** One turn of the tag loop of `Start`: `DownloadUser(tag)`, then `UploadTg()` if that succeeded. */
    method SweepTag(env: Env, tag: string) returns (fetches: seq<Fetch>, sends: seq<Send>, report: Sweep.TagReport)
      requires Valid()
      modifies this
      ensures Valid()
      ensures Sweep.SweepTag(cfg, env, tag, old(users), old(downloaded)) == Sweep.Turn(users, downloaded, fetches, sends, report)
    {
      var failure;
      fetches, failure := DownloadUser(env, tag);
      if failure.Some? {
        return fetches, [], Sweep.SyncFailed(tag, failure.value);
      }
      var relayFailure;
      sends, relayFailure := UploadTg(env);
      report := Sweep.Synced(tag, relayFailure);
    }

    /** The store side of `tgHandlerAdd`: the reply it gives, and the write of the new user. */
    method AddUser(env: Env, chatId: int, text: string) returns (reply: Commands.AddReply)
      requires Valid()
      modifies this
      ensures Valid()
      ensures var r := Commands.Add(env, old(users), chatId, text);
        users == r.users && reply == r.reply && downloaded == old(downloaded)
    {
      var args := Commands.Split(text);
      if |args| != 3 {
        return Commands.AddUsage;
      }
      var tag, username := args[1], args[2];
      var details := env.details(username);
      if details.None? {
        return Commands.AddLookupFailed(username);
      }
      var user := Commands.NewUser(chatId, username, details.value);
      if !env.putUser(tag, user) {
        return Commands.AddWriteFailed;
      }
      users := users[tag := user];
      reply := Commands.AddNewUser(tag, username, details.value);
    }
  }
}

=== FILE: commands.dfy ===
/**
 * The Telegram commands of the archive bot (internal/archive/archive_tg_cmd.go and
 * the admin filter of `StartBot`): how a command's text is split into arguments,
 * what `/info`, `/add` and `/bundle` answer and change, and how `/du` sizes a
 * directory.
 */
module Commands {
  import opened Wrappers
  import opened Records
  import opened Oracles
  import opened Paths
  import opened Sync

  /** `strings.Split(s, " ")`: the pieces between single spaces; never empty, `[""]` for `""`. */
  function Split(s: string): (r: seq<string>)
    ensures |r| >= 1
    ensures forall k :: 0 <= k < |r| ==> ' ' !in r[k]
  {
    if s == [] then [""]
    else
      var rest := Split(s[1..]);
      if s[0] == ' ' then [""] + rest else [[s[0]] + rest[0]] + rest[1..]
  }

  /** `strings.Join(parts, " ")`. */
  function Join(parts: seq<string>): string
    requires parts != []
  {
    if |parts| == 1 then parts[0] else parts[0] + " " + Join(parts[1..])
  }

  /** The number of spaces in `s`. */
  function Spaces(s: string): nat {
    if s == [] then 0 else (if s[0] == ' ' then 1 else 0) + Spaces(s[1..])
  }

  /** Splitting loses nothing: joining the pieces gives the text back. */
  lemma {:induction false} JoinSplit(s: string)
    ensures Join(Split(s)) == s
    decreases |s|
  {
    if s != [] {
      JoinSplit(s[1..]);
      var rest := Split(s[1..]);
      if s[0] == ' ' {
        assert Join([""] + rest) == "" + " " + Join(rest);
      } else {
        var r := [[s[0]] + rest[0]] + rest[1..];
        if |rest| == 1 {
          assert r == [[s[0]] + rest[0]];
        } else {
          assert r[1..] == rest[1..];
          assert Join(rest) == rest[0] + " " + Join(rest[1..]);
        }
      }
    }
  }

  /** Words without spaces come back from the text they were joined into. */
  lemma {:induction false} SplitJoin(parts: seq<string>)
    requires parts != [] && forall k :: 0 <= k < |parts| ==> ' ' !in parts[k]
    ensures Split(Join(parts)) == parts
    decreases |parts|, |parts[0]|
  {
    if |parts| == 1 {
      SplitWord(parts[0]);
    } else {
      var tail := Join(parts[1..]);
      SplitJoin(parts[1..]);
      SplitPrefix(parts[0], tail);
      assert parts == [parts[0]] + parts[1..];
    }
  }

  /** A word without spaces is one piece. */
  lemma {:induction false} SplitWord(w: string)
    requires ' ' !in w
    ensures Split(w) == [w]
    decreases |w|
  {
    if w != [] {
      SplitWord(w[1..]);
      assert [w[0]] + w[1..] == w;
    }
  }

  /** A word without spaces, a space, then more text: the word is the first piece. */
  lemma {:induction false} SplitPrefix(w: string, t: string)
    requires ' ' !in w
    ensures Split(w + " " + t) == [w] + Split(t)
    decreases |w|
  {
    if w == [] {
      assert w + " " + t == [' '] + t;
      assert (w + " " + t)[1..] == t;
    } else {
      SplitPrefix(w[1..], t);
      assert (w + " " + t)[1..] == w[1..] + " " + t;
      assert [w[0]] + w[1..] == w;
    }
  }

  /** There is one piece more than there are spaces. */
  lemma {:induction false} SplitCount(s: string)
    ensures |Split(s)| == Spaces(s) + 1
    decreases |s|
  {
    if s != [] {
      SplitCount(s[1..]);
    }
  }

  /** What a handler sees of an update: the chat, the sender (if any) and the text. */
  datatype Message = Message(chatId: int, from: Option<int>, text: string)

  /** The commands the bot registers. */
  datatype Command = StartCmd | InfoCmd | AddCmd | BundleCmd | DuCmd

  /** `onAdmin`: the update is a message whose sender is one of the configured admins. */
  predicate OnAdmin(cfg: Config, upd: Option<Message>) {
    upd.Some? && upd.value.from.Some? && upd.value.from.value in cfg.admins
  }

  /** One link of the handler chain `StartBot` builds: a command handler, or a filter on every link after it. */
  datatype Link = Handle(cmd: Command) | Filter

  /** The chain `StartBot` registers, in order: `/start` and `/info`, the admin filter, then `/add`, `/bundle`, `/du`. */
  const StartBotChain: seq<Link> := [Handle(StartCmd), Handle(InfoCmd), Filter, Handle(AddCmd), Handle(BundleCmd), Handle(DuCmd)]

  /**
   * Whether an update for `cmd` reaches its handler in `chain`: the links are tried
   * in order, and a filter the update fails stops it from reaching any later link.
   */
  function Dispatch(cfg: Config, chain: seq<Link>, cmd: Command, upd: Option<Message>): (reached: bool)
    ensures reached ==> Handle(cmd) in chain
    decreases |chain|
  {
    if chain == [] then false
    else match chain[0]
      case Filter => OnAdmin(cfg, upd) && Dispatch(cfg, chain[1..], cmd, upd)
      case Handle(c) => c == cmd || Dispatch(cfg, chain[1..], cmd, upd)
  }

  /** A handler registered after a filter, and not before it, is reached only by updates that pass the filter. */
  lemma {:induction false} DispatchPassesFilter(cfg: Config, chain: seq<Link>, cmd: Command, upd: Option<Message>, k: nat)
    requires k < |chain| && chain[k] == Filter && Handle(cmd) !in chain[..k]
    requires Dispatch(cfg, chain, cmd, upd)
    ensures OnAdmin(cfg, upd)
    decreases k
  {
    if k > 0 {
      assert chain[0] == chain[..k][0];
      assert chain[1..][..k - 1] == chain[..k][1..];
      DispatchPassesFilter(cfg, chain[1..], cmd, upd, k - 1);
    }
  }

  /** A handler is reached when it is registered and the update passes every filter before it. */
  lemma {:induction false} DispatchReaches(cfg: Config, chain: seq<Link>, cmd: Command, upd: Option<Message>, k: nat)
    requires k < |chain| && chain[k] == Handle(cmd)
    requires forall i :: 0 <= i < k && chain[i] == Filter ==> OnAdmin(cfg, upd)
    ensures Dispatch(cfg, chain, cmd, upd)
    decreases k
  {
    if k > 0 && chain[0] != Handle(cmd) {
      forall i | 0 <= i < k - 1 && chain[1..][i] == Filter ensures OnAdmin(cfg, upd) {
        assert chain[i + 1] == chain[1..][i];
      }
      DispatchReaches(cfg, chain[1..], cmd, upd, k - 1);
    }
  }

  /**
   * `StartBot`'s chain lets `/start` and `/info` through for anyone, and `/add`,
   * `/bundle` and `/du` exactly for a message whose sender is a configured admin.
   */
  lemma StartBotAdmitsAdminsOnly(cfg: Config, cmd: Command, upd: Option<Message>)
    ensures cmd.StartCmd? || cmd.InfoCmd? ==> Dispatch(cfg, StartBotChain, cmd, upd)
    ensures !(cmd.StartCmd? || cmd.InfoCmd?) ==>
              (Dispatch(cfg, StartBotChain, cmd, upd) <==> upd.Some? && upd.value.from.Some? && upd.value.from.value in cfg.admins)
  {
    var chain := StartBotChain;
    var k := match cmd case StartCmd => 0 case InfoCmd => 1 case AddCmd => 3 case BundleCmd => 4 case DuCmd => 5;
    assert chain[k] == Handle(cmd);
    if cmd.StartCmd? || cmd.InfoCmd? || OnAdmin(cfg, upd) {
      DispatchReaches(cfg, chain, cmd, upd, k);
    } else {
      assert chain[2] == Filter && chain[..2] == [Handle(StartCmd), Handle(InfoCmd)];
      if Dispatch(cfg, chain, cmd, upd) {
        DispatchPassesFilter(cfg, chain, cmd, upd, 2);
      }
    }
  }

  /** The answers of `/info`. */
  datatype InfoReply = InfoUsage | InfoLookupFailed(username: string) | InfoDetails(username: string, id: string)

  /** `tgHandlerInfo` on the message text `text`. */
  function Info(env: Env, text: string): (r: InfoReply)
    // exactly one argument, the text after the only space
    ensures r.InfoUsage? <==> Spaces(text) != 1
    ensures !r.InfoUsage? ==> ' ' !in r.username && text == Split(text)[0] + " " + r.username
    ensures r.InfoLookupFailed? ==> env.details(r.username).None?
    ensures r.InfoDetails? ==> env.details(r.username) == Some(r.id)
  {
    var args := Split(text);
    SplitCount(text);
    JoinSplit(text);
    if |args| != 2 then InfoUsage
    else
      assert Join(args) == args[0] + " " + args[1];
      match env.details(args[1])
      case None => InfoLookupFailed(args[1])
      case Some(id) => InfoDetails(args[1], id)
  }

  /** The answers of `/add`; `AddWriteFailed` is the store error the handler returns without a reply. */
  datatype AddReply = AddUsage | AddLookupFailed(username: string) | AddWriteFailed | AddNewUser(tag: string, username: string, id: string)

  datatype Registered = Registered(users: map<string, User>, reply: AddReply)

  /** The record `/add` stores: one destination, the chat the command came from, with no topic yet, and the zero watermark. */
  function NewUser(chatId: int, username: string, id: string): (u: User)
    ensures u.username == username && u.id == id
    ensures |u.tg| == 1 && u.tg[0].chatId == chatId && u.tg[0].threadId == 0
    // no post dated year 1 or later is older than the watermark
    ensures forall t :: t >= ZeroTimeUnix ==> !Before(t, u.lastUpdate)
  {
    User(username, id, [UserTg(chatId, 0)], ZeroTime)
  }

  /** `tgHandlerAdd` on the users store `users`, for a message `text` in chat `chatId`. */
  function Add(env: Env, users: map<string, User>, chatId: int, text: string): (r: Registered)
    // exactly two arguments
    ensures r.reply.AddUsage? <==> Spaces(text) != 2
    // the tag and the username are looked up and registered as given; each reply has its own cause
    ensures var args := Split(text);
      && (r.reply.AddLookupFailed? <==> |args| == 3 && env.details(args[2]).None?)
      && (r.reply.AddLookupFailed? ==> r.reply.username == args[2])
    ensures var args := Split(text);
      r.reply.AddWriteFailed? <==>
        |args| == 3 && env.details(args[2]).Some? && !env.putUser(args[1], NewUser(chatId, args[2], env.details(args[2]).value))
    ensures var args := Split(text);
      r.reply.AddNewUser? <==>
        |args| == 3 && env.details(args[2]).Some? && env.putUser(args[1], NewUser(chatId, args[2], env.details(args[2]).value))
    // only a successful registration changes the store
    ensures !r.reply.AddNewUser? ==> r.users == users
    // which replaces any record under the tag with a fresh one
    ensures r.reply.AddNewUser? ==>
              && text == Split(text)[0] + " " + r.reply.tag + " " + r.reply.username
              && env.details(r.reply.username) == Some(r.reply.id)
              && r.users == users[r.reply.tag := NewUser(chatId, r.reply.username, r.reply.id)]
  {
    var args := Split(text);
    SplitCount(text);
    JoinSplit(text);
    if |args| != 3 then Registered(users, AddUsage)
    else
      assert args[1..][1..] == [args[2]];
      assert Join(args[1..]) == args[1] + " " + args[2];
      assert Join(args) == args[0] + " " + args[1] + " " + args[2];
      var tag, username := args[1], args[2];
      match env.details(username)
      case None => Registered(users, AddLookupFailed(username))
      case Some(id) =>
        if !env.putUser(tag, NewUser(chatId, username, id)) then Registered(users, AddWriteFailed)
        else Registered(users[tag := NewUser(chatId, username, id)], AddNewUser(tag, username, id))
  }

  /**
   * A user `/add` registered has the zero watermark, so the first sync that
   * succeeds records every post of its feed.
   */
  lemma RegisteredUserSyncsWholeFeed(cfg: Config, env: Env, users: map<string, User>, chatId: int, text: string, d: map<string, DownloadedPost>)
    requires Add(env, users, chatId, text).reply.AddNewUser?
    requires var reply := Add(env, users, chatId, text).reply;
      forall k :: 0 <= k < |env.feed(reply.id)| && env.feed(reply.id)[k].Item? ==> env.feed(reply.id)[k].post.createTime >= ZeroTimeUnix
    requires var r := Add(env, users, chatId, text);
      SyncUser(cfg, env, r.users, d, r.reply.tag).failure.None?
    ensures var r := Add(env, users, chatId, text);
      var items := env.feed(r.reply.id);
      forall k :: 0 <= k < |items| ==> items[k].Item? && items[k].post.id in SyncUser(cfg, env, r.users, d, r.reply.tag).downloaded
  {
    var r := Add(env, users, chatId, text);
    var tag := r.reply.tag;
    var stored := r.users[tag];
    assert stored == NewUser(chatId, r.reply.username, r.reply.id);
    var lookup := if stored.id == "" then env.details(stored.username) else Some(stored.id);
    assert lookup == Some(r.reply.id);
    var user := stored.(id := lookup.value);
    assert user == stored;
    var users1 := r.users[tag := user];
    if stored.id == "" {
      assert env.mkdir(TagDir(cfg.data, tag));
    }
    ZeroWatermarkReadsWholeFeed(cfg, env, tag, user, env.feed(user.id), d);
  }

  /** The answers of `/bundle`. `Bundled` carries whether the archive was sent. */
  datatype BundleReply = BundleUsage | BundleReadFailed | TagNotFound(tag: string) | Bundled(tag: string, dir: string, name: string, sent: bool)

  /** `tgHandlerBundle` for a message `text` in chat `chatId`, on day `today` (`time.Now().Format(time.DateOnly)`). */
  function Bundle(cfg: Config, env: Env, users: map<string, User>, chatId: int, text: string, today: string): (r: BundleReply)
    // exactly one argument, the tag
    ensures r.BundleUsage? <==> Spaces(text) != 1
    ensures r.TagNotFound? || r.Bundled? ==> env.readUser(r.tag) && text == Split(text)[0] + " " + r.tag
    ensures r.TagNotFound? ==> r.tag !in users
    // a known tag's data directory is sent, named after the tag and the day
    ensures r.Bundled? ==> r.tag in users && r.dir == TagDir(cfg.data, r.tag) && r.name == r.tag + "_" + today
                           && r.sent == env.sendBundle(chatId, r.dir, r.name)
  {
    var args := Split(text);
    SplitCount(text);
    JoinSplit(text);
    if |args| != 2 then BundleUsage
    else
      assert Join(args) == args[0] + " " + args[1];
      var tag := args[1];
      if !env.readUser(tag) then BundleReadFailed
      else if tag !in users then TagNotFound(tag)
      else
        var dir, name := TagDir(cfg.data, tag), tag + "_" + today;
        Bundled(tag, dir, name, env.sendBundle(chatId, dir, name))
  }

  /** The handler's deferred "unexpected error" reply goes out exactly when it returns an error. */
  predicate Apologizes(r: BundleReply) {
    r.BundleReadFailed? || (r.Bundled? && !r.sent)
  }

  /**
   * `/bundle` apologizes only for a well-formed command: when the users store cannot
   * be read, or when sending the directory of a known tag fails; a usage error or
   * an unknown tag gets its own reply instead.
   */
  lemma BundleApologizes(cfg: Config, env: Env, users: map<string, User>, chatId: int, text: string, today: string)
    ensures var r := Bundle(cfg, env, users, chatId, text, today);
      Apologizes(r) <==> |Split(text)| == 2 && var tag := Split(text)[1];
        (!env.readUser(tag) || (tag in users && !env.sendBundle(chatId, TagDir(cfg.data, tag), tag + "_" + today)))
  {
    SplitCount(text);
  }

  /** One entry `filepath.WalkDir` hands to the callback: an error, or a directory or file whose `Info()` may fail. */
  datatype WalkEntry = WalkEntry(failed: bool, isDir: bool, size: Option<nat>)

  /** The callback of `calcDirSize` lets the walk go on past this entry. */
  predicate Readable(e: WalkEntry) {
    !e.failed && (e.isDir || e.size.Some?)
  }

  /** What the callback adds for a readable entry: a file's size, nothing for a directory. */
  function Counted(e: WalkEntry): nat
    requires Readable(e)
  {
    if e.isDir then 0 else e.size.value
  }

  /** How many entries the walk gets through before the first it cannot read. */
  function ReadablePrefix(es: seq<WalkEntry>): (r: nat)
    ensures r <= |es|
    ensures forall k :: 0 <= k < r ==> Readable(es[k])
    ensures r < |es| ==> !Readable(es[r])
  {
    if es == [] || !Readable(es[0]) then 0 else 1 + ReadablePrefix(es[1..])
  }

  /** The total size of the files among readable entries. */
  function SumOfFiles(es: seq<WalkEntry>): (total: nat)
    requires forall k :: 0 <= k < |es| ==> Readable(es[k])
    // every file's size is part of the total
    ensures forall k :: 0 <= k < |es| ==> Counted(es[k]) <= total
  {
    if es == [] then 0 else SumOfFiles(es[..|es| - 1]) + Counted(es[|es| - 1])
  }

  /** Sizes add up over the parts of a walk. */
  lemma {:induction false} SumOfFilesAppend(a: seq<WalkEntry>, b: seq<WalkEntry>)
    requires forall k :: 0 <= k < |a| ==> Readable(a[k])
    requires forall k :: 0 <= k < |b| ==> Readable(b[k])
    ensures forall k :: 0 <= k < |a + b| ==> Readable((a + b)[k])
    ensures SumOfFiles(a + b) == SumOfFiles(a) + SumOfFiles(b)
    decreases |b|
  {
    assert forall k :: 0 <= k < |a + b| ==> Readable((a + b)[k]) by {
      forall k | 0 <= k < |a + b| ensures Readable((a + b)[k]) {
        if k >= |a| {
          assert (a + b)[k] == b[k - |a|];
        }
      }
    }
    if b == [] {
      assert a + b == a;
    } else {
      var init := b[..|b| - 1];
      SumOfFilesAppend(a, init);
      assert (a + b)[..|a + b| - 1] == a + init;
    }
  }

  /** Directories add nothing: a walk of directories only sums to zero. */
  lemma {:induction false} DirectoriesWeighNothing(es: seq<WalkEntry>)
    requires forall k :: 0 <= k < |es| ==> Readable(es[k]) && es[k].isDir
    ensures SumOfFiles(es) == 0
    decreases |es|
  {
    if es != [] {
      DirectoriesWeighNothing(es[..|es| - 1]);
    }
  }

  /**
   * `calcDirSize`: the sum over the walk, stopped by the first entry the callback
   * cannot read, with the error that stopped it. The size so far is returned too.
   */
  method CalcDirSize(es: seq<WalkEntry>) returns (size: int, ok: bool)
    ensures ok <==> ReadablePrefix(es) == |es|
    ensures size == SumOfFiles(es[..ReadablePrefix(es)])
  {
    size := 0;
    var i := 0;
    while i < |es|
      invariant i <= ReadablePrefix(es)
      invariant size == SumOfFiles(es[..i])
    {
      if !Readable(es[i]) {
        return size, false;
      }
      assert es[..i + 1][..i] == es[..i];
      size := size + Counted(es[i]);
      i := i + 1;
    }
    assert es[..i] == es;
    ok := true;
  }

  /** `x` to the power `n`. */
  function Pow(x: nat, n: nat): nat {
    if n == 0 then 1 else x * Pow(x, n - 1)
  }

  /** The step between the units of `du`. */
  const Step: nat := 1024

  /** The unit names of `du`, by exponent. */
  const Units: seq<string> := ["B", "KB", "MB", "GB", "TB", "PB"]

  /** What the loop of `du` ends with for `size`: the scaled value, the divisor and the exponent. */
  function Scaled(size: int): (r: (int, nat, nat))
    // the value ends at most 1024, and the divisor at least 1
    ensures r.0 <= Step && r.1 >= 1
    decreases if size < 0 then 0 else size
  {
    if size <= Step then (size, 1, 0)
    else
      var r := Scaled(size / Step);
      (r.0, r.1 * Step, r.2 + 1)
  }

  /** Multiplying both sides by the same factor keeps an inequality. */
  lemma MulLe(a: int, b: int, c: nat)
    requires a <= b
    ensures a * c <= b * c
  {
  }

  /**
   * The divisor is 1024^exp, and the scaled value is at most 1024; only sizes above
   * 1024 are scaled, and any other size, zero or negative included, is left as it is.
   */
  lemma {:induction false} ScaledDivisor(size: int)
    ensures var r := Scaled(size);
      r.1 == Pow(Step, r.2) && r.0 <= Step && (r.2 == 0 <==> size <= Step) && (size <= Step ==> r.0 == size)
    decreases if size < 0 then 0 else size
  {
    if size > Step {
      var r := Scaled(size / Step);
      ScaledDivisor(size / Step);
      assert Pow(Step, r.2 + 1) == Step * r.1;
    }
  }

  /** 1024^exp is the least power of 1024 with size < 1025 * 1024^exp. */
  lemma {:induction false} ScaledRange(size: int)
    ensures var r := Scaled(size);
      && size < (Step + 1) * Pow(Step, r.2)
      && (r.2 > 0 ==> size >= (Step + 1) * Pow(Step, r.2 - 1))
    decreases if size < 0 then 0 else size
  {
    if size > Step {
      var q := size / Step;
      var r := Scaled(q);
      var p := Pow(Step, r.2);
      ScaledRange(q);
      assert q * Step <= size < (q + 1) * Step;
      MulLe(q + 1, (Step + 1) * p, Step);
      assert (Step + 1) * p * Step == (Step + 1) * Pow(Step, r.2 + 1);
      if r.2 > 0 {
        var p1 := Pow(Step, r.2 - 1);
        MulLe((Step + 1) * p1, q, Step);
        assert (Step + 1) * p1 * Step == (Step + 1) * p;
      }
    }
  }

  /** The scaled value is the size divided by the divisor, rounded down. */
  lemma {:induction false} ScaledQuotient(size: int)
    requires size > 0
    ensures var r := Scaled(size);
      r.0 * r.1 <= size < (r.0 + 1) * r.1
    decreases size
  {
    if size > Step {
      var q := size / Step;
      var r := Scaled(q);
      ScaledQuotient(q);
      assert q * Step <= size < (q + 1) * Step;
      MulLe(r.0 * r.1, q, Step);
      MulLe(q + 1, (r.0 + 1) * r.1, Step);
      assert r.0 * r.1 * Step == r.0 * (r.1 * Step);
      assert (r.0 + 1) * r.1 * Step == (r.0 + 1) * (r.1 * Step);
    }
  }

  /**
   * The loop of `du` picks the divisor 1024^exp for the least exponent that brings
   * the size to at most 1024, and the scaled value is the size divided by it.
   */
  lemma ScaledMeaning(size: int)
    ensures var r := Scaled(size);
      && r.1 == Pow(Step, r.2)
      && r.0 <= Step
      && (r.2 == 0 <==> size <= Step)
      && (size <= Step ==> r.0 == size)
      && size < (Step + 1) * Pow(Step, r.2)
      && (r.2 > 0 ==> size >= (Step + 1) * Pow(Step, r.2 - 1))
      && (size > 0 ==> r.0 * r.1 <= size < (r.0 + 1) * r.1)
  {
    ScaledDivisor(size);
    ScaledRange(size);
    if size > 0 {
      ScaledQuotient(size);
    }
  }

  lemma MulGrows(x: nat, a: nat)
    requires x >= 1
    ensures a <= x * a
  {
  }

  /** Powers grow with the exponent. */
  lemma {:induction false} PowMonotone(x: nat, m: nat, n: nat)
    requires x >= 1 && m <= n
    ensures Pow(x, m) <= Pow(x, n)
    decreases n
  {
    if m < n {
      PowMonotone(x, m, n - 1);
      MulGrows(x, Pow(x, n - 1));
    }
  }

  /**
   * `units[exp]` is out of range, and `du` panics, exactly for the sizes of at
   * least 1025 * 1024^5 bytes.
   */
  lemma OutOfUnitsIff(size: int)
    ensures Scaled(size).2 >= |Units| <==> size >= (Step + 1) * Pow(Step, 5)
  {
    var r := Scaled(size);
    ScaledMeaning(size);
    if r.2 >= 6 {
      PowMonotone(Step, 5, r.2 - 1);
    } else {
      PowMonotone(Step, r.2, 5);
    }
  }

  /** The loop of `du`. */
  method ScaleSize(size: int) returns (n: int, div: nat, exp: nat)
    ensures (n, div, exp) == Scaled(size)
  {
    div, exp := 1, 0;
    n := size;
    while Step < n
      invariant Scaled(size) == (Scaled(n).0, Scaled(n).1 * div, Scaled(n).2 + exp)
      decreases n
    {
      assert Scaled(n).1 * div == Scaled(n / Step).1 * (div * Step);
      div := div * Step;
      exp := exp + 1;
      n := n / Step;
    }
  }

  /** What `du` prints: an error marker, or the size over the divisor with the unit; past the units it panics. */
  datatype DuText = DuError | DuSize(size: int, div: nat, unit: string) | DuPanic

  /** `du` over the walk `es` of a directory. */
  function DuOf(es: seq<WalkEntry>): (t: DuText)
    // the error marker exactly when the walk stops at an entry it cannot read
    ensures t.DuError? <==> ReadablePrefix(es) < |es|
    ensures t.DuSize? ==> t.unit in Units && t.size == SumOfFiles(es)
  {
    if ReadablePrefix(es) < |es| then DuError
    else
      var size := SumOfFiles(es);
      var r := Scaled(size);
      if r.2 < |Units| then DuSize(size, r.1, Units[r.2]) else DuPanic
  }

  /** `du`, the loop and the unit lookup. */
  method Du(es: seq<WalkEntry>) returns (t: DuText)
    ensures t == DuOf(es)
  {
    var size, ok := CalcDirSize(es);
    if !ok {
      return DuError;
    }
    assert es[..ReadablePrefix(es)] == es;
    var n, div, exp := ScaleSize(size);
    if exp < |Units| {
      t := DuSize(size, div, Units[exp]);
    } else {
      t := DuPanic;
    }
  }

  /** `du` of a walk it can read: the total with the largest unit that keeps the value at most 1024, or a panic. */
  lemma DuMeaning(es: seq<WalkEntry>)
    requires ReadablePrefix(es) == |es|
    ensures var t := DuOf(es);
      && (t.DuSize? || t.DuPanic?)
      && (t.DuPanic? <==> SumOfFiles(es) >= (Step + 1) * Pow(Step, 5))
      && (t.DuSize? ==> t.size == SumOfFiles(es))
      && (t.DuSize? ==> exists e :: 0 <= e < |Units| && t.div == Pow(Step, e) && t.unit == Units[e]
                                    && t.size < (Step + 1) * t.div && (e > 0 ==> t.size >= (Step + 1) * Pow(Step, e - 1)))
  {
    var size := SumOfFiles(es);
    ScaledMeaning(size);
    OutOfUnitsIff(size);
    var r := Scaled(size);
    if r.2 < |Units| {
      assert DuOf(es).unit == Units[r.2];
    }
  }

  /** One line of the `/du` reply: a directory name and what `du` printed for it. */
  datatype DuLine = DuLine(name: string, text: DuText)

  /** The lines of the `/du` reply for the data directory listing `names`; `walk` gives the walk of each directory. */
  function DuLines(data: string, names: seq<string>, walk: string -> seq<WalkEntry>): (r: seq<DuLine>)
    // every listed entry but `.DS_Store`, in order, each with the size of its own directory
    ensures |r| <= |names|
    ensures forall k :: 0 <= k < |r| ==> r[k].name in names && r[k].name != ".DS_Store" && r[k].text == DuOf(walk(TagDir(data, r[k].name)))
  {
    if names == [] then []
    else
      var rest := DuLines(data, names[1..], walk);
      if names[0] == ".DS_Store" then rest
      else [DuLine(names[0], DuOf(walk(TagDir(data, names[0]))))] + rest
  }

  /** The reply has a line for directory `n`. */
  ghost predicate HasLine(lines: seq<DuLine>, n: string) {
    exists k :: 0 <= k < |lines| && lines[k].name == n
  }

  /** No listed directory but `.DS_Store` is left out of the reply. */
  lemma {:induction false} DuLinesCoverListing(data: string, names: seq<string>, walk: string -> seq<WalkEntry>)
    ensures forall n :: n in names && n != ".DS_Store" ==> HasLine(DuLines(data, names, walk), n)
    decreases |names|
  {
    if names != [] {
      DuLinesCoverListing(data, names[1..], walk);
      var r := DuLines(data, names, walk);
      var rest := DuLines(data, names[1..], walk);
      forall n | n in names && n != ".DS_Store" ensures HasLine(r, n) {
        if n == names[0] {
          assert r[0].name == n;
        } else {
          assert n in names[1..];
          var k :| 0 <= k < |rest| && rest[k].name == n;
          if names[0] == ".DS_Store" {
            assert r[k].name == n;
          } else {
            assert r[k + 1].name == n;
          }
        }
      }
    }
  }

  /** `tgHandlerDu`: nothing when the data directory cannot be listed, else one line per entry. */
  method DuReport(data: string, listing: Option<seq<string>>, walk: string -> seq<WalkEntry>) returns (lines: Option<seq<DuLine>>)
    ensures listing.None? ==> lines.None?
    ensures listing.Some? ==> lines == Some(DuLines(data, listing.value, walk))
  {
    if listing.None? {
      return None;
    }
    var names := listing.value;
    var result: seq<DuLine> := [];
    var i := 0;
    while i < |names|
      invariant i <= |names|
      invariant result + DuLines(data, names[i..], walk) == DuLines(data, names, walk)
    {
      assert names[i..][1..] == names[i + 1..];
      if names[i] != ".DS_Store" {
        var t := Du(walk(TagDir(data, names[i])));
        result := result + [DuLine(names[i], t)];
      }
      i := i + 1;
    }
    assert names[i..] == [];
    assert result == DuLines(data, names, walk);
    lines := Some(result);
  }
}

=== FILE: oracles.dfy ===
/**
 * The collaborators the core calls but does not contain: the TikTok client (user
 * lookup and feed), the file fetcher, the store writes, the clock and Telegram.
 * Each is a function of its arguments that answers success or failure.
 */
module Oracles {
  import opened Wrappers
  import opened Records

  /** A post as the feed yields it (`ContentUrls()` and `IsVideo()` of the TikTok client's post). */
  datatype Post = Post(id: string, createTime: int, isVideo: bool, urls: seq<string>)

  /** One step of the feed iterator: a post, or the error it yields in its place. */
  datatype FeedItem = Item(post: Post) | Fault

  /** One call of the fetcher: the file to write and the url to read. */
  datatype Fetch = Fetch(path: string, url: string)

  /** One media message to Telegram: a video, or a document. */
  datatype Send = Send(chatId: int, threadId: int, file: string, asVideo: bool)

  datatype Env = Env(
    /** `users.KeysSnapshot()`: the listing of the tags, or a failure. */
    userKeys: set<string> -> Option<seq<string>>,
    /** `downloaded.KeysSnapshot()`: the listing of the pending post ids, or a failure. */
    postKeys: set<string> -> Option<seq<string>>,
    /** `tikwm.Details(username)`: the user id, or a failure. */
    details: string -> Option<string>,
    /** `tikwm.FeedSeq(id)`: the feed, newest post first. */
    feed: string -> seq<FeedItem>,
    /** `time.Now()` when the scan of a tag starts. */
    clock: string -> int,
    /** `time.Unix(t, 0).Format(time.DateOnly)`. */
    dateOnly: int -> string,
    /** `os.MkdirAll(dir)` succeeds. */
    mkdir: string -> bool,
    /** `grab.Get(path, url)` succeeds. */
    fetch: Fetch -> bool,
    /** `users.Add(tag, user)` succeeds. */
    putUser: (string, User) -> bool,
    /** `downloaded.Add(id, post)` succeeds. */
    putPost: (string, DownloadedPost) -> bool,
    /** `downloaded.Del(id)` succeeds. */
    delPost: string -> bool,
    /** `tg.CreateForumTopic(chat, name)`: the new topic's thread id, or a failure. */
    createTopic: (int, string) -> Option<int>,
    /** `tgvideo.Send` or `tg.SendDocument` succeeds. */
    send: Send -> bool,
    /** `users.TryGet(tag)` can read the store (whether or not the tag is there). */
    readUser: string -> bool,
    /** `tgarchive.SendBy2GB(chat, dir, name)` succeeds. */
    sendBundle: (int, string, string) -> bool)
}

=== FILE: paths.dfy ===
/**
 * Where the archive writes a post's media (`videoPath` and `picturePath` in
 * internal/archive/archive.go): `<data>/<tag>/<username>_<date>_<id>.mp4` for a
 * video, `<data>/<tag>/<username>_<date>_<id>_<index>.jpg` for the index-th picture.
 */
module Paths {
  /** Everything a post's file name is made of. */
  datatype PostName = PostName(data: string, tag: string, username: string, date: string, postId: string)

  /** The decimal digit for `d` (the `%d` verb on one digit). */
  function Digit(d: nat): (c: char)
    requires d < 10
    ensures c as int == '0' as int + d
  {
    ('0' as int + d) as char
  }

  /** `%d` of a non-negative integer. */
  function Decimal(n: nat): (s: string)
    ensures 1 <= |s|
    ensures n < 10 <==> |s| == 1
    decreases n
  {
    if n < 10 then [Digit(n)] else Decimal(n / 10) + [Digit(n % 10)]
  }

  /** Different numbers are written differently. */
  lemma {:induction false} DecimalInjective(a: nat, b: nat)
    requires Decimal(a) == Decimal(b)
    ensures a == b
    decreases a
  {
    if a >= 10 && b >= 10 {
      var sa, sb := Decimal(a), Decimal(b);
      assert sa[..|sa| - 1] == Decimal(a / 10);
      assert sb[..|sb| - 1] == Decimal(b / 10);
      DecimalInjective(a / 10, b / 10);
      assert Digit(a % 10) == sa[|sa| - 1] == sb[|sb| - 1] == Digit(b % 10);
    } else if a < 10 && b < 10 {
      assert Digit(a) == Decimal(a)[0] == Decimal(b)[0] == Digit(b);
    }
  }

  /** `path.Join(data, tag, name)`, for names without separators to clean. */
  function Join(data: string, tag: string, name: string): string {
    data + "/" + tag + "/" + name
  }

  /** The directory of one tag's files. */
  function TagDir(data: string, tag: string): string {
    data + "/" + tag
  }

  function Stem(n: PostName): string {
    n.username + "_" + n.date + "_" + n.postId
  }

  function VideoPath(n: PostName): string {
    Join(n.data, n.tag, Stem(n) + ".mp4")
  }

  function PicturePath(n: PostName, index: nat): string {
    Join(n.data, n.tag, Stem(n) + "_" + Decimal(index) + ".jpg")
  }

  /** The video of a post is a `.mp4` file in its tag's directory. */
  lemma VideoPathInTagDir(n: PostName)
    ensures var p := VideoPath(n);
      TagDir(n.data, n.tag) + "/" <= p && |p| >= 4 && p[|p| - 4..] == ".mp4"
  {
    assert VideoPath(n) == (TagDir(n.data, n.tag) + "/") + (Stem(n) + ".mp4");
  }

  /** Every picture of a post is a `.jpg` file in its tag's directory. */
  lemma PicturePathInTagDir(n: PostName, index: nat)
    ensures var p := PicturePath(n, index);
      TagDir(n.data, n.tag) + "/" <= p && |p| >= 4 && p[|p| - 4..] == ".jpg"
  {
    assert PicturePath(n, index) == (TagDir(n.data, n.tag) + "/") + (Stem(n) + "_" + Decimal(index) + ".jpg");
  }

  /** The pictures of one post never overwrite each other. */
  lemma {:induction false} PicturePathsDistinct(n: PostName, i: nat, j: nat)
    requires i != j
    ensures PicturePath(n, i) != PicturePath(n, j)
  {
    if PicturePath(n, i) == PicturePath(n, j) {
      var prefix := n.data + "/" + n.tag + "/" + Stem(n) + "_";
      var si, sj := Decimal(i) + ".jpg", Decimal(j) + ".jpg";
      assert PicturePath(n, i) == prefix + si;
      assert PicturePath(n, j) == prefix + sj;
      assert si == (prefix + si)[|prefix|..] == (prefix + sj)[|prefix|..] == sj;
      assert Decimal(i) == si[..|si| - 4] == sj[..|sj| - 4] == Decimal(j);
      DecimalInjective(i, j);
    }
  }

  /** A video file and a picture file never share a path. */
  lemma VideoIsNotPicture(n: PostName, m: PostName, index: nat)
    ensures VideoPath(n) != PicturePath(m, index)
  {
    var v, p := VideoPath(n), PicturePath(m, index);
    assert v[|v| - 1] == '4';
    assert p[|p| - 1] == 'g';
  }
}

=== FILE: records.dfy ===
/**
 * The records the archive keeps (internal/archive/config.go): a tracked user with
 * its Telegram destinations, and a downloaded post waiting to be relayed.
 *
 * Instants (`time.Time`) are counted in nanoseconds since the Unix epoch; a post's
 * `CreateTime` is in Unix seconds, as the feed reports it.
 */
module Records {
  /** Nanoseconds in one second. */
  const NanosPerSecond: int := 1_000_000_000

  /** The Unix second of Go's zero `time.Time` (January 1, year 1, UTC). */
  const ZeroTimeUnix: int := -62_135_596_800

  /** The zero `time.Time` as an instant: the watermark of a user no scan has finished for. */
  const ZeroTime: int := ZeroTimeUnix * NanosPerSecond

  /** One Telegram destination of a user; `threadId == 0` means no forum topic was created yet. */
  datatype UserTg = UserTg(chatId: int, threadId: int)

  /**
   * A tracked user, stored under its tag. `id` is empty until the feed lookup resolved
   * it; `lastUpdate` is the watermark: the instant the last complete scan started.
   */
  datatype User = User(username: string, id: string, tg: seq<UserTg>, lastUpdate: int)

  /**
   * A post downloaded but not yet relayed, stored under its `id`. `tag` is the only
   * link back to the user, hence to the destinations.
   */
  datatype DownloadedPost = DownloadedPost(id: string, tag: string, files: seq<string>, isVideo: bool, createTime: int)

  /** The part of the configuration the core reads: the data directory and the admin ids. */
  datatype Config = Config(data: string, admins: seq<int>)

  /** `time.Unix(createTime, 0).Before(instant)`. */
  predicate Before(createTime: int, instant: int) {
    createTime * NanosPerSecond < instant
  }

  /**
   * The invariant of the pending-post store: every entry is stored under its own id,
   * and a video entry has the file that relaying it sends.
   */
  ghost predicate WellFormed(downloaded: map<string, DownloadedPost>) {
    forall id :: id in downloaded ==> downloaded[id].id == id && (downloaded[id].isVideo ==> downloaded[id].files != [])
  }

  /** What relaying keeps of a user: the same destinations, and every topic already created. */
  ghost predicate TopicsKept(before: User, after: User) {
    && |after.tg| == |before.tg|
    && forall j :: 0 <= j < |before.tg| ==>
         after.tg[j].chatId == before.tg[j].chatId
         && (before.tg[j].threadId != 0 ==> after.tg[j].threadId == before.tg[j].threadId)
  }

  lemma TopicsKeptTransitive(a: User, b: User, c: User)
    requires TopicsKept(a, b) && TopicsKept(b, c)
    ensures TopicsKept(a, c)
  {
  }

  /** Every user keeps its key, name and destinations; topics, once created, stay. */
  ghost predicate UsersKept(before: map<string, User>, after: map<string, User>) {
    && after.Keys == before.Keys
    && forall tag :: tag in before ==> after[tag].username == before[tag].username && TopicsKept(before[tag], after[tag])
  }

  lemma UsersKeptTransitive(a: map<string, User>, b: map<string, User>, c: map<string, User>)
    requires UsersKept(a, b) && UsersKept(b, c)
    ensures UsersKept(a, c)
  {
  }

  /** Users change only by gaining topics: every other field, and every topic already created, stays. */
  ghost predicate OnlyTopicsAdded(before: map<string, User>, after: map<string, User>) {
    && UsersKept(before, after)
    && forall tag :: tag in before ==> after[tag] == before[tag].(tg := after[tag].tg)
  }

  lemma OnlyTopicsAddedTransitive(a: map<string, User>, b: map<string, User>, c: map<string, User>)
    requires OnlyTopicsAdded(a, b) && OnlyTopicsAdded(b, c)
    ensures OnlyTopicsAdded(a, c)
  {
  }
}

=== FILE: relay.dfy ===
/**
 * The relay stage of internal/archive/archive_tg.go as functions of the stores and
 * the collaborators: `UploadTg` sorts every pending post by creation time and
 * uploads each; `uploadPost` walks the post's user's destinations, creating a forum
 * topic where there is none yet, and deletes the pending entry after each
 * successful send; `uploadPostTo` sends a video, or the files one by one.
 */
module Relay {
  import opened Wrappers
  import opened Records
  import opened Oracles

  /** The document loop of `uploadPostTo`: one send per file, in order, stopping at the first failure. */
  function SendDocuments(env: Env, chat: int, thread: int, files: seq<string>): (r: (seq<Send>, bool))
    // one send per file when all succeed, and at least one send when one fails
    ensures |r.0| <= |files| && (r.1 ==> |r.0| == |files|) && (!r.1 ==> r.0 != [])
    decreases |files|
  {
    if files == [] then ([], true)
    else
      var s := Send(chat, thread, files[0], false);
      if !env.send(s) then ([s], false)
      else
        var rest := SendDocuments(env, chat, thread, files[1..]);
        ([s] + rest.0, rest.1)
  }

  /** Every send in `sends` succeeds. */
  predicate AllSent(env: Env, sends: seq<Send>) {
    forall k :: 0 <= k < |sends| ==> env.send(sends[k])
  }

  /** The documents go out in the order of `files`, to the one destination, at most one send per file. */
  lemma {:induction false} SendDocumentsInOrder(env: Env, chat: int, thread: int, files: seq<string>)
    ensures var r := SendDocuments(env, chat, thread, files);
      && |r.0| <= |files|
      && forall k :: 0 <= k < |r.0| ==> r.0[k] == Send(chat, thread, files[k], false)
    decreases |files|
  {
    if files != [] && env.send(Send(chat, thread, files[0], false)) {
      SendDocumentsInOrder(env, chat, thread, files[1..]);
      var r, rest := SendDocuments(env, chat, thread, files), SendDocuments(env, chat, thread, files[1..]);
      forall k | 1 <= k < |r.0| ensures r.0[k] == Send(chat, thread, files[k], false) {
        assert r.0[k] == rest.0[k - 1];
      }
    }
  }

  /** A send list that starts with `s` all succeeds exactly when `s` and the rest do. */
  lemma AllSentCons(env: Env, s: Send, sends: seq<Send>)
    ensures AllSent(env, [s] + sends) <==> env.send(s) && AllSent(env, sends)
  {
    var all := [s] + sends;
    if AllSent(env, all) {
      forall k | 0 <= k < |sends| ensures env.send(sends[k]) {
        assert all[k + 1] == sends[k];
      }
      assert all[0] == s;
    }
    if env.send(s) && AllSent(env, sends) {
      forall k | 0 <= k < |all| ensures env.send(all[k]) {
        if k > 0 {
          assert all[k] == sends[k - 1];
        }
      }
    }
  }

  /** The document loop succeeds exactly when every file was sent successfully. */
  lemma {:induction false} SendDocumentsSucceedIff(env: Env, chat: int, thread: int, files: seq<string>)
    ensures var r := SendDocuments(env, chat, thread, files);
      r.1 <==> |r.0| == |files| && AllSent(env, r.0)
    decreases |files|
  {
    if files != [] {
      var s := Send(chat, thread, files[0], false);
      var rest := SendDocuments(env, chat, thread, files[1..]);
      if env.send(s) {
        SendDocumentsSucceedIff(env, chat, thread, files[1..]);
        AllSentCons(env, s, rest.0);
      } else {
        AllSentCons(env, s, []);
      }
    }
  }

  /** When the document loop fails, its last send is the one that failed, and every earlier one succeeded. */
  lemma {:induction false} SendDocumentsFailAtLast(env: Env, chat: int, thread: int, files: seq<string>)
    ensures var r := SendDocuments(env, chat, thread, files);
      !r.1 ==> r.0 != [] && !env.send(r.0[|r.0| - 1]) && AllSent(env, r.0[..|r.0| - 1])
    decreases |files|
  {
    if files != [] {
      var s := Send(chat, thread, files[0], false);
      var r := SendDocuments(env, chat, thread, files);
      if env.send(s) {
        var rest := SendDocuments(env, chat, thread, files[1..]);
        SendDocumentsFailAtLast(env, chat, thread, files[1..]);
        if !r.1 {
          assert r.0[..|r.0| - 1] == [s] + rest.0[..|rest.0| - 1];
          AllSentCons(env, s, rest.0[..|rest.0| - 1]);
        }
      } else {
        assert r.0[..0] == [];
      }
    }
  }

  /**
   * `uploadPostTo`: what it sends to one destination and whether it succeeded. A
   * video sends its first file; other posts send their files as documents.
   */
  function Deliver(env: Env, post: DownloadedPost, chat: int, thread: int): (r: (seq<Send>, bool))
    requires post.isVideo ==> post.files != []
    // everything goes to the one destination, each send carries one of the post's files
    ensures forall k :: 0 <= k < |r.0| ==> r.0[k].chatId == chat && r.0[k].threadId == thread && r.0[k].file in post.files
    // a video is exactly one send, of its first file
    ensures post.isVideo ==> |r.0| == 1 && r.0[0].file == post.files[0] && r.0[0].asVideo
    // a post without files sends nothing and succeeds
    ensures post.files == [] ==> r == ([], true)
  {
    if post.isVideo then
      var s := Send(chat, thread, post.files[0], true);
      ([s], env.send(s))
    else
      SendDocumentsInOrder(env, chat, thread, post.files);
      SendDocuments(env, chat, thread, post.files)
  }

  /** Why one destination of a post failed. */
  datatype DestError = TopicFailed(chatId: int) | TopicNotSaved(chatId: int) | SendFailed(chatId: int) | DeleteFailed(chatId: int)

  /** Why `uploadPost` returned an error: no such user, or the failures of its destinations, in order. */
  datatype UploadError = NoUser(tag: string) | Failed(errs: seq<DestError>)

  /**
   * What the destination loop of `uploadPost` carries: the user as loaded and since
   * updated, both stores, the sends so far and the `errs` list.
   */
  datatype Upload = Upload(user: User, users: map<string, User>, downloaded: map<string, DownloadedPost>, sends: seq<Send>, errs: seq<DestError>)

  /** The thread the step for destination `j` sends to, if it gets as far as sending. */
  function StepThread(env: Env, post: DownloadedPost, s: Upload, j: nat): Option<int>
    requires j < |s.user.tg|
  {
    var target := s.user.tg[j];
    if target.threadId != 0 then Some(target.threadId)
    else match env.createTopic(target.chatId, post.tag)
      case None => None
      case Some(thread) =>
        if env.putUser(post.tag, s.user.(tg := s.user.tg[j := UserTg(target.chatId, thread)])) then Some(thread) else None
  }

  /** Destination `j` receives the post: it has (or just got and saved) a topic, and every send succeeds. */
  predicate Delivers(env: Env, post: DownloadedPost, s: Upload, j: nat)
    requires j < |s.user.tg|
    requires post.isVideo ==> post.files != []
  {
    var thread := StepThread(env, post, s, j);
    thread.Some? && Deliver(env, post, s.user.tg[j].chatId, thread.value).1
  }

  /** The sends to one destination, then the delete of the pending entry if they all succeeded. */
  function SendAndDelete(env: Env, post: DownloadedPost, chat: int, thread: int, s: Upload): (r: Upload)
    requires post.isVideo ==> post.files != []
    ensures r.user == s.user && r.users == s.users && s.sends <= r.sends
    ensures s.errs <= r.errs && |r.errs| <= |s.errs| + 1
  {
    var out := Deliver(env, post, chat, thread);
    if !out.1 then s.(sends := s.sends + out.0, errs := s.errs + [SendFailed(chat)])
    else if env.delPost(post.id) then s.(sends := s.sends + out.0, downloaded := s.downloaded - {post.id})
    else s.(sends := s.sends + out.0, errs := s.errs + [DeleteFailed(chat)])
  }

  /** One turn of the destination loop of `uploadPost`, for destination `j`. */
  function DestStep(env: Env, post: DownloadedPost, j: nat, s: Upload): (r: Upload)
    requires j < |s.user.tg|
    requires post.isVideo ==> post.files != []
    // the user keeps its name, id and watermark, and the number of its destinations
    ensures |r.user.tg| == |s.user.tg|
    ensures r.user == s.user.(tg := r.user.tg)
    ensures s.sends <= r.sends
    // at most one error per destination, appended in destination order
    ensures s.errs <= r.errs && |r.errs| <= |s.errs| + 1
  {
    var target := s.user.tg[j];
    if target.threadId != 0 then SendAndDelete(env, post, target.chatId, target.threadId, s)
    else match env.createTopic(target.chatId, post.tag)
      case None => s.(errs := s.errs + [TopicFailed(target.chatId)])
      case Some(thread) =>
        var user := s.user.(tg := s.user.tg[j := UserTg(target.chatId, thread)]);
        if !env.putUser(post.tag, user) then s.(user := user, errs := s.errs + [TopicNotSaved(target.chatId)])
        else SendAndDelete(env, post, target.chatId, thread, s.(user := user, users := s.users[post.tag := user]))
  }

  /**
   * A destination with a topic triggers neither topic creation nor a user write; a
   * failed topic creation skips the destination; a new topic is stored with the
   * user before anything is sent to it.
   */
  lemma DestStepTopic(env: Env, post: DownloadedPost, j: nat, s: Upload)
    requires j < |s.user.tg|
    requires post.isVideo ==> post.files != []
    ensures var r := DestStep(env, post, j, s);
      var target := s.user.tg[j];
      && (target.threadId != 0 ==> r.user == s.user && r.users == s.users)
      && (target.threadId == 0 && env.createTopic(target.chatId, post.tag).None? ==>
            r == s.(errs := s.errs + [TopicFailed(target.chatId)]))
      && (target.threadId == 0 && r.sends != s.sends ==>
            r.users == s.users[post.tag := r.user] && r.user.tg[j].threadId == env.createTopic(target.chatId, post.tag).value)
  {
  }

  /** The only store write of a turn is the user with its new topic. */
  lemma DestStepWritesUser(env: Env, post: DownloadedPost, j: nat, s: Upload)
    requires j < |s.user.tg|
    requires post.isVideo ==> post.files != []
    ensures var r := DestStep(env, post, j, s);
      r.users == s.users || r.users == s.users[post.tag := r.user]
  {
  }

  /** A turn keeps every destination, and the topic of each one that had a topic. */
  lemma DestStepKeepsTopics(env: Env, post: DownloadedPost, j: nat, s: Upload)
    requires j < |s.user.tg|
    requires post.isVideo ==> post.files != []
    ensures TopicsKept(s.user, DestStep(env, post, j, s).user)
  {
  }

  /** `after` is `before`, or `before` without the entry `id`. */
  ghost predicate DeletesAtMost(before: map<string, DownloadedPost>, after: map<string, DownloadedPost>, id: string) {
    after == before || after == before - {id}
  }

  /** A turn deletes at most the post's own pending entry. */
  lemma DestStepDeletesOnlyPost(env: Env, post: DownloadedPost, j: nat, s: Upload)
    requires j < |s.user.tg|
    requires post.isVideo ==> post.files != []
    ensures DeletesAtMost(s.downloaded, DestStep(env, post, j, s).downloaded, post.id)
  {
  }

  /** The pending entry goes at this turn exactly when the destination received the post and the delete succeeded. */
  lemma DestStepDeletes(env: Env, post: DownloadedPost, j: nat, s: Upload)
    requires j < |s.user.tg|
    requires post.isVideo ==> post.files != []
    ensures post.id in DestStep(env, post, j, s).downloaded
            <==> post.id in s.downloaded && !(Delivers(env, post, s, j) && env.delPost(post.id))
  {
  }

  /** A turn adds no error exactly when the destination received the post and the delete succeeded. */
  lemma DestStepSucceeds(env: Env, post: DownloadedPost, j: nat, s: Upload)
    requires j < |s.user.tg|
    requires post.isVideo ==> post.files != []
    ensures DestStep(env, post, j, s).errs == s.errs <==> Delivers(env, post, s, j) && env.delPost(post.id)
  {
  }

  /** A turn touches destination `j` only, and everything it sends goes there, in its (possibly new) topic. */
  lemma DestStepStaysAtJ(env: Env, post: DownloadedPost, j: nat, s: Upload)
    requires j < |s.user.tg|
    requires post.isVideo ==> post.files != []
    ensures var r := DestStep(env, post, j, s);
      && (forall k :: 0 <= k < |s.user.tg| && k != j ==> r.user.tg[k] == s.user.tg[k])
      && (forall k :: |s.sends| <= k < |r.sends| ==> r.sends[k].chatId == s.user.tg[j].chatId && r.sends[k].threadId == r.user.tg[j].threadId)
  {
    var target := s.user.tg[j];
    if target.threadId == 0 && env.createTopic(target.chatId, post.tag).Some? {
      var thread := env.createTopic(target.chatId, post.tag).value;
      var user := s.user.(tg := s.user.tg[j := UserTg(target.chatId, thread)]);
      assert forall k :: 0 <= k < |s.user.tg| && k != j ==> user.tg[k] == s.user.tg[k];
    }
  }

  /** The destination loop after its first `j` turns: every destination, in order, whatever the earlier ones did. */
  function Walk(env: Env, post: DownloadedPost, s0: Upload, j: nat): (r: Upload)
    requires j <= |s0.user.tg|
    requires post.isVideo ==> post.files != []
    ensures |r.user.tg| == |s0.user.tg| && r.user == s0.user.(tg := r.user.tg)
    ensures s0.errs <= r.errs && |r.errs| <= |s0.errs| + j
    decreases j, 0
  {
    if j == 0 then s0 else AfterTurn(env, post, s0, j - 1)
  }

  /**
   * The loop state after turn `j`: that turn applied to what the first `j` turns
   * left. With `Walk` it makes one recursive definition, so that the verifier
   * unfolds one turn at a time.
   */
  function AfterTurn(env: Env, post: DownloadedPost, s0: Upload, j: nat): (r: Upload)
    requires j < |s0.user.tg|
    requires post.isVideo ==> post.files != []
    // the first `j + 1` turns add at most one error each
    ensures s0.errs <= r.errs && |r.errs| <= |s0.errs| + j + 1
    decreases j, 1
  {
    DestStep(env, post, j, Walk(env, post, s0, j))
  }

  /** The destination loop keeps every destination, and every topic it finds. */
  lemma {:induction false} WalkKeepsTopics(env: Env, post: DownloadedPost, s0: Upload, n: nat)
    requires n <= |s0.user.tg|
    requires post.isVideo ==> post.files != []
    ensures TopicsKept(s0.user, Walk(env, post, s0, n).user)
    decreases n
  {
    if n > 0 {
      var before := Walk(env, post, s0, n - 1);
      WalkKeepsTopics(env, post, s0, n - 1);
      var after := DestStep(env, post, n - 1, before);
      WalkUnfold(env, post, s0, n);
      DestStepKeepsTopics(env, post, n - 1, before);
      TopicsKeptTransitive(s0.user, before.user, after.user);
    }
  }

  /** The error a turn appends, if any, names the chat of its own destination. */
  lemma DestStepErrorAtJ(env: Env, post: DownloadedPost, j: nat, s: Upload)
    requires j < |s.user.tg|
    requires post.isVideo ==> post.files != []
    ensures var r := DestStep(env, post, j, s);
      forall i :: |s.errs| <= i < |r.errs| ==> r.errs[i].chatId == s.user.tg[j].chatId
  {
  }

  /** Errors, once appended by the destination loop, stay where they are. */
  lemma {:induction false} WalkErrorsGrow(env: Env, post: DownloadedPost, s0: Upload, k: nat, n: nat)
    requires k <= n <= |s0.user.tg|
    requires post.isVideo ==> post.files != []
    ensures Walk(env, post, s0, k).errs <= Walk(env, post, s0, n).errs
    decreases n
  {
    if k < n {
      WalkErrorsGrow(env, post, s0, k, n - 1);
      WalkUnfold(env, post, s0, n);
    }
  }

  /**
   * The errors turn `k` appended stay, in the final list, at the positions turn `k`
   * gave them, and name destination `k`'s chat: the error list follows destination order.
   */
  lemma WalkErrorsOfTurn(env: Env, post: DownloadedPost, s0: Upload, k: nat, n: nat)
    requires k < n <= |s0.user.tg|
    requires post.isVideo ==> post.files != []
    ensures var before, after, last := Walk(env, post, s0, k), Walk(env, post, s0, k + 1), Walk(env, post, s0, n);
      forall i :: |before.errs| <= i < |after.errs| ==> i < |last.errs| && last.errs[i].chatId == s0.user.tg[k].chatId
  {
    var before := Walk(env, post, s0, k);
    WalkErrorsGrow(env, post, s0, k + 1, n);
    WalkUnfold(env, post, s0, k + 1);
    DestStepErrorAtJ(env, post, k, before);
    WalkKeepsTopics(env, post, s0, k);
  }

  /** Deleting at most `id` twice in a row deletes at most `id`. */
  lemma DeletesCompose(d0: map<string, DownloadedPost>, d1: map<string, DownloadedPost>, d2: map<string, DownloadedPost>, id: string)
    requires DeletesAtMost(d0, d1, id) && DeletesAtMost(d1, d2, id)
    ensures DeletesAtMost(d0, d2, id)
  {
  }

  /** Turn `j` of the destination loop deletes at most the post's own pending entry. */
  lemma TurnDeletesOnlyPost(env: Env, post: DownloadedPost, s0: Upload, j: nat)
    requires j < |s0.user.tg|
    requires post.isVideo ==> post.files != []
    ensures DeletesAtMost(Walk(env, post, s0, j).downloaded, Walk(env, post, s0, j + 1).downloaded, post.id)
  {
    WalkUnfold(env, post, s0, j + 1);
    DestStepDeletesOnlyPost(env, post, j, Walk(env, post, s0, j));
  }

  /** The destination loop deletes at most the post's own pending entry. */
  lemma {:induction false} WalkDeletesOnlyPost(env: Env, post: DownloadedPost, s0: Upload, n: nat)
    requires n <= |s0.user.tg|
    requires post.isVideo ==> post.files != []
    ensures DeletesAtMost(s0.downloaded, Walk(env, post, s0, n).downloaded, post.id)
    decreases n
  {
    if n > 0 {
      WalkDeletesOnlyPost(env, post, s0, n - 1);
      TurnDeletesOnlyPost(env, post, s0, n - 1);
      DeletesCompose(s0.downloaded, Walk(env, post, s0, n - 1).downloaded, Walk(env, post, s0, n).downloaded, post.id);
    }
  }

  /** The loop state `uploadPost` starts from. */
  function Start(users: map<string, User>, d: map<string, DownloadedPost>, post: DownloadedPost): Upload
    requires post.tag in users
  {
    Upload(users[post.tag], users, d, [], [])
  }

  /** The outcome of `uploadPost`: both stores, the sends made, and the error returned. */
  datatype Uploaded = Uploaded(users: map<string, User>, downloaded: map<string, DownloadedPost>, sends: seq<Send>, failure: Option<UploadError>)

  /** `uploadPost(post)` on the stores `users` and `d`. */
  function RelayPost(env: Env, users: map<string, User>, d: map<string, DownloadedPost>, post: DownloadedPost): (r: Uploaded)
    requires post.isVideo ==> post.files != []
    // a post whose user cannot be loaded is neither sent nor deleted
    ensures post.tag !in users ==> r == Uploaded(users, d, [], Some(NoUser(post.tag)))
    // uploading a post deletes at most that post
    ensures r.downloaded == d || r.downloaded == d - {post.id}
  {
    if post.tag !in users then Uploaded(users, d, [], Some(NoUser(post.tag)))
    else
      var s := Walk(env, post, Start(users, d, post), |users[post.tag].tg|);
      WalkDeletesOnlyPost(env, post, Start(users, d, post), |users[post.tag].tg|);
      Uploaded(s.users, s.downloaded, s.sends, if s.errs == [] then None else Some(Failed(s.errs)))
  }

  /** Turn `j` deletes the pending entry exactly when destination `j` received the post and the delete succeeded. */
  lemma TurnDeletes(env: Env, post: DownloadedPost, s0: Upload, j: nat)
    requires j < |s0.user.tg|
    requires post.isVideo ==> post.files != []
    ensures var before := Walk(env, post, s0, j);
      post.id in Walk(env, post, s0, j + 1).downloaded
      <==> post.id in before.downloaded && !(Delivers(env, post, before, j) && env.delPost(post.id))
  {
    WalkUnfold(env, post, s0, j + 1);
    DestStepDeletes(env, post, j, Walk(env, post, s0, j));
  }

  /** Some destination before `n` received the post. */
  ghost predicate SomeDelivered(env: Env, post: DownloadedPost, s0: Upload, n: nat)
    requires n <= |s0.user.tg|
    requires post.isVideo ==> post.files != []
  {
    exists j :: 0 <= j < n && Delivers(env, post, Walk(env, post, s0, j), j)
  }

  /** Some destination before `n` received the post exactly when one before `n - 1` or destination `n - 1` did. */
  lemma SomeDeliveredExtend(env: Env, post: DownloadedPost, s0: Upload, n: nat)
    requires 0 < n <= |s0.user.tg|
    requires post.isVideo ==> post.files != []
    ensures SomeDelivered(env, post, s0, n)
            <==> SomeDelivered(env, post, s0, n - 1) || Delivers(env, post, Walk(env, post, s0, n - 1), n - 1)
  {
    if SomeDelivered(env, post, s0, n - 1) {
      var j :| 0 <= j < n - 1 && Delivers(env, post, Walk(env, post, s0, j), j);
      assert 0 <= j < n;
    }
  }

  /**
   * The pending entry is gone after the destination loop exactly when some
   * destination received the post and the delete succeeded: one successful
   * destination is enough, whatever the others do.
   */
  lemma {:induction false} DeletedAfterAnyDelivery(env: Env, post: DownloadedPost, s0: Upload, n: nat)
    requires n <= |s0.user.tg|
    requires post.isVideo ==> post.files != []
    requires post.id in s0.downloaded
    ensures post.id !in Walk(env, post, s0, n).downloaded <==> env.delPost(post.id) && SomeDelivered(env, post, s0, n)
    decreases n
  {
    if n > 0 {
      DeletedAfterAnyDelivery(env, post, s0, n - 1);
      TurnDeletes(env, post, s0, n - 1);
      SomeDeliveredExtend(env, post, s0, n);
    }
  }

  /** Every destination before `n` received the post, and every delete succeeded. */
  ghost predicate AllDelivered(env: Env, post: DownloadedPost, s0: Upload, n: nat)
    requires n <= |s0.user.tg|
    requires post.isVideo ==> post.files != []
  {
    forall j :: 0 <= j < n ==> Delivers(env, post, Walk(env, post, s0, j), j) && env.delPost(post.id)
  }

  /** The destination loop after `n` turns is turn `n - 1` applied to the loop after `n - 1` turns. */
  lemma WalkUnfold(env: Env, post: DownloadedPost, s0: Upload, n: nat)
    requires 0 < n <= |s0.user.tg|
    requires post.isVideo ==> post.files != []
    ensures Walk(env, post, s0, n) == DestStep(env, post, n - 1, Walk(env, post, s0, n - 1))
  {
  }

  /** Turn `j` kept the error list `errs` it was given, and nothing before it had added errors. */
  lemma NoErrorStep(env: Env, post: DownloadedPost, j: nat, errs: seq<DestError>, s: Upload)
    requires j < |s.user.tg|
    requires post.isVideo ==> post.files != []
    requires errs <= s.errs && DestStep(env, post, j, s).errs == errs
    ensures s.errs == errs && Delivers(env, post, s, j) && env.delPost(post.id)
  {
    DestStepSucceeds(env, post, j, s);
  }

  lemma AllDeliveredExtend(env: Env, post: DownloadedPost, s0: Upload, n: nat)
    requires 0 < n <= |s0.user.tg|
    requires post.isVideo ==> post.files != []
    requires AllDelivered(env, post, s0, n - 1)
    requires Delivers(env, post, Walk(env, post, s0, n - 1), n - 1) && env.delPost(post.id)
    ensures AllDelivered(env, post, s0, n)
  {
  }

  /** A loop that added no error delivered everywhere. */
  lemma {:induction false} NoErrorsMeansAllDelivered(env: Env, post: DownloadedPost, s0: Upload, n: nat)
    requires n <= |s0.user.tg|
    requires post.isVideo ==> post.files != []
    requires Walk(env, post, s0, n).errs == s0.errs
    ensures AllDelivered(env, post, s0, n)
    decreases n
  {
    if n > 0 {
      WalkUnfold(env, post, s0, n);
      NoErrorStep(env, post, n - 1, s0.errs, Walk(env, post, s0, n - 1));
      NoErrorsMeansAllDelivered(env, post, s0, n - 1);
      AllDeliveredExtend(env, post, s0, n);
    }
  }

  /** A loop that delivered everywhere added no error. */
  lemma {:induction false} AllDeliveredMeansNoErrors(env: Env, post: DownloadedPost, s0: Upload, n: nat)
    requires n <= |s0.user.tg|
    requires post.isVideo ==> post.files != []
    requires AllDelivered(env, post, s0, n)
    ensures Walk(env, post, s0, n).errs == s0.errs
    decreases n
  {
    if n > 0 {
      WalkUnfold(env, post, s0, n);
      assert Delivers(env, post, Walk(env, post, s0, n - 1), n - 1);
      DestStepSucceeds(env, post, n - 1, Walk(env, post, s0, n - 1));
      assert AllDelivered(env, post, s0, n - 1);
      AllDeliveredMeansNoErrors(env, post, s0, n - 1);
    }
  }

  /**
   * The destination loop adds no error exactly when every destination received the
   * post and every delete succeeded: `uploadPost` reports success only then.
   */
  lemma NoErrorsIffAllDelivered(env: Env, post: DownloadedPost, s0: Upload, n: nat)
    requires n <= |s0.user.tg|
    requires post.isVideo ==> post.files != []
    ensures Walk(env, post, s0, n).errs == s0.errs <==> AllDelivered(env, post, s0, n)
  {
    if Walk(env, post, s0, n).errs == s0.errs {
      NoErrorsMeansAllDelivered(env, post, s0, n);
    }
    if AllDelivered(env, post, s0, n) {
      AllDeliveredMeansNoErrors(env, post, s0, n);
    }
  }

  /** The stores the loop writes hold the user as loaded, with topics added where there were none. */
  ghost predicate SavesOnlyTopics(post: DownloadedPost, s0: Upload, s: Upload) {
    && s.users.Keys == s0.users.Keys
    && (forall t :: t in s0.users && t != post.tag ==> s.users[t] == s0.users[t])
    && post.tag in s.users
    && s.users[post.tag] == s0.user.(tg := s.users[post.tag].tg)
    && TopicsKept(s0.user, s.users[post.tag])
  }

  /** The destination loop changes no user but the post's, and that one only by adding topics. */
  lemma {:induction false} WalkSavesOnlyTopics(env: Env, post: DownloadedPost, s0: Upload, n: nat)
    requires n <= |s0.user.tg|
    requires post.isVideo ==> post.files != []
    requires post.tag in s0.users && s0.users[post.tag] == s0.user
    ensures SavesOnlyTopics(post, s0, Walk(env, post, s0, n))
    decreases n
  {
    if n > 0 {
      WalkSavesOnlyTopics(env, post, s0, n - 1);
      WalkUnfold(env, post, s0, n);
      WalkKeepsTopics(env, post, s0, n);
      DestStepWritesUser(env, post, n - 1, Walk(env, post, s0, n - 1));
    }
  }

  /**
   * Destination `j` is handled at its own turn only: before it the user holds the
   * destination as loaded, after it whatever that turn left (a topic is created
   * at most once per destination and post).
   */
  lemma {:induction false} DestinationHandledOnce(env: Env, post: DownloadedPost, s0: Upload, j: nat, n: nat)
    requires j < |s0.user.tg| && n <= |s0.user.tg|
    requires post.isVideo ==> post.files != []
    ensures Walk(env, post, s0, n).user.tg[j] == if j < n then Walk(env, post, s0, j + 1).user.tg[j] else s0.user.tg[j]
    decreases n
  {
    if n > 0 && n != j + 1 {
      DestinationHandledOnce(env, post, s0, j, n - 1);
      WalkUnfold(env, post, s0, n);
      DestStepStaysAtJ(env, post, n - 1, Walk(env, post, s0, n - 1));
    }
  }

  /** `uploadPost` changes no user but the post's, and that one only by adding topics. */
  lemma RelayPostKeepsUsers(env: Env, users: map<string, User>, d: map<string, DownloadedPost>, post: DownloadedPost)
    requires post.isVideo ==> post.files != []
    ensures OnlyTopicsAdded(users, RelayPost(env, users, d, post).users)
  {
    if post.tag in users {
      WalkSavesOnlyTopics(env, post, Start(users, d, post), |users[post.tag].tg|);
    }
  }

  /** `cmp.Compare` of the creation times, or 0 when either post cannot be loaded. */
  function CompareByCreateTime(d: map<string, DownloadedPost>, left: string, right: string): (c: int)
    ensures -1 <= c <= 1
    ensures c == 0 <==> left !in d || right !in d || d[left].createTime == d[right].createTime
    ensures c < 0 ==> d[left].createTime < d[right].createTime
    ensures c > 0 ==> d[left].createTime > d[right].createTime
  {
    if left !in d || right !in d then 0
    else if d[left].createTime < d[right].createTime then -1
    else if d[left].createTime > d[right].createTime then 1
    else 0
  }

  function Insert(d: map<string, DownloadedPost>, id: string, ids: seq<string>): (r: seq<string>)
    ensures multiset(r) == multiset(ids) + multiset{id}
  {
    if ids == [] then [id]
    else if CompareByCreateTime(d, id, ids[0]) <= 0 then [id] + ids
    else
      assert ids == [ids[0]] + ids[1..];
      [ids[0]] + Insert(d, id, ids[1..])
  }

  /** `slices.SortFunc` with the comparator of `UploadTg`: a reordering of `ids`. */
  function SortByCreateTime(d: map<string, DownloadedPost>, ids: seq<string>): (r: seq<string>)
    ensures multiset(r) == multiset(ids)
  {
    if ids == [] then []
    else
      assert ids == [ids[0]] + ids[1..];
      Insert(d, ids[0], SortByCreateTime(d, ids[1..]))
  }

  /** Oldest first. */
  ghost predicate SortedByCreateTime(d: map<string, DownloadedPost>, ids: seq<string>) {
    forall i, j :: 0 <= i < j < |ids| && ids[i] in d && ids[j] in d ==> d[ids[i]].createTime <= d[ids[j]].createTime
  }

  /** Sortedness of a sequence carries over to its tail. */
  lemma SortedTail(d: map<string, DownloadedPost>, ids: seq<string>)
    requires ids != [] && SortedByCreateTime(d, ids)
    ensures SortedByCreateTime(d, ids[1..])
  {
    forall i, j | 0 <= i < j < |ids[1..]| && ids[1..][i] in d && ids[1..][j] in d
      ensures d[ids[1..][i]].createTime <= d[ids[1..][j]].createTime
    {
      assert ids[1..][i] == ids[i + 1] && ids[1..][j] == ids[j + 1];
    }
  }

  /** Putting in front an id no later than every listed one keeps the order. */
  lemma SortedCons(d: map<string, DownloadedPost>, id: string, ids: seq<string>)
    requires id in d && SortedByCreateTime(d, ids)
    requires forall k :: 0 <= k < |ids| && ids[k] in d ==> d[id].createTime <= d[ids[k]].createTime
    ensures SortedByCreateTime(d, [id] + ids)
  {
    var r := [id] + ids;
    forall i, j | 0 <= i < j < |r| && r[i] in d && r[j] in d ensures d[r[i]].createTime <= d[r[j]].createTime {
      assert r[j] == ids[j - 1];
      if i > 0 {
        assert r[i] == ids[i - 1];
      }
    }
  }

  lemma {:induction false} InsertSorted(d: map<string, DownloadedPost>, id: string, ids: seq<string>)
    requires id in d && forall x :: x in ids ==> x in d
    requires SortedByCreateTime(d, ids)
    ensures SortedByCreateTime(d, Insert(d, id, ids))
    decreases |ids|
  {
    if ids == [] {
      return;
    }
    if CompareByCreateTime(d, id, ids[0]) > 0 {
      var tail := Insert(d, id, ids[1..]);
      SortedTail(d, ids);
      InsertSorted(d, id, ids[1..]);
      forall k | 0 <= k < |tail| && tail[k] in d ensures d[ids[0]].createTime <= d[tail[k]].createTime {
        assert tail[k] in multiset(tail);
        if tail[k] != id {
          assert tail[k] in multiset(ids[1..]);
          var m :| 0 <= m < |ids[1..]| && ids[1..][m] == tail[k];
          assert ids[m + 1] == tail[k];
        }
      }
      SortedCons(d, ids[0], tail);
    } else {
      forall k | 0 <= k < |ids| && ids[k] in d ensures d[id].createTime <= d[ids[k]].createTime {
        assert k == 0 || d[ids[0]].createTime <= d[ids[k]].createTime;
      }
      SortedCons(d, id, ids);
    }
  }

  /** When every id can be loaded, the order `UploadTg` works in is oldest first. */
  lemma {:induction false} SortIsOldestFirst(d: map<string, DownloadedPost>, ids: seq<string>)
    requires forall x :: x in ids ==> x in d
    ensures SortedByCreateTime(d, SortByCreateTime(d, ids))
    decreases |ids|
  {
    if ids != [] {
      var rest := SortByCreateTime(d, ids[1..]);
      SortIsOldestFirst(d, ids[1..]);
      forall x | x in rest ensures x in d {
        assert x in multiset(rest);
        assert x in multiset(ids[1..]);
      }
      InsertSorted(d, ids[0], rest);
    }
  }

  /** Why `UploadTg` returned an error. */
  datatype RelayFailure = SnapshotFailed | PostMissing(id: string)

  /** The outcome of `UploadTg` (or of its loop): both stores, the sends made, and the error returned. */
  datatype Relay = Relay(users: map<string, User>, downloaded: map<string, DownloadedPost>, sends: seq<Send>, failure: Option<RelayFailure>)

  /** The loop of `UploadTg` over the ids in `order`. A failing upload does not stop it; a failing lookup does. */
  function RelayFrom(env: Env, order: seq<string>, users: map<string, User>, d: map<string, DownloadedPost>): (r: Relay)
    requires WellFormed(d)
    // no entry is created or changed; only ids the loop visits can go
    ensures r.downloaded.Keys <= d.Keys && forall id :: id in r.downloaded ==> r.downloaded[id] == d[id]
    ensures forall id :: id in d && id !in order ==> id in r.downloaded
    // the loop's only error is a listed id it cannot load
    ensures r.failure.Some? ==> r.failure.value.PostMissing? && r.failure.value.id in order
    decreases |order|
  {
    if order == [] then Relay(users, d, [], None)
    else if order[0] !in d then Relay(users, d, [], Some(PostMissing(order[0])))
    else
      var u := RelayPost(env, users, d, d[order[0]]);
      var rest := RelayFrom(env, order[1..], u.users, u.downloaded);
      Relay(rest.users, rest.downloaded, u.sends + rest.sends, rest.failure)
  }

  /** `UploadTg()` on the stores `users` and `d`. */
  function RelayAll(env: Env, users: map<string, User>, d: map<string, DownloadedPost>): (r: Relay)
    requires WellFormed(d)
    // a failed snapshot relays nothing; otherwise no entry is created or changed
    ensures r.failure == Some(SnapshotFailed) <==> env.postKeys(d.Keys).None?
    ensures env.postKeys(d.Keys).None? ==> r == Relay(users, d, [], Some(SnapshotFailed))
    ensures r.downloaded.Keys <= d.Keys && forall id :: id in r.downloaded ==> r.downloaded[id] == d[id]
    // an error other than the snapshot's names an id of the listing
    ensures r.failure.Some? && r.failure.value.PostMissing? ==> r.failure.value.id in env.postKeys(d.Keys).value
  {
    match env.postKeys(d.Keys)
    case None => Relay(users, d, [], Some(SnapshotFailed))
    case Some(ids) =>
      var order := SortByCreateTime(d, ids);
      assert forall x :: x in order ==> x in ids by {
        forall x | x in order ensures x in ids {
          assert x in multiset(order);
        }
      }
      RelayFrom(env, order, users, d)
  }

  /** The relay loop changes users only by adding topics. */
  lemma {:induction false} RelayFromKeepsUsers(env: Env, order: seq<string>, users: map<string, User>, d: map<string, DownloadedPost>)
    requires WellFormed(d)
    ensures OnlyTopicsAdded(users, RelayFrom(env, order, users, d).users)
    decreases |order|
  {
    if order != [] && order[0] in d {
      var u := RelayPost(env, users, d, d[order[0]]);
      RelayPostKeepsUsers(env, users, d, d[order[0]]);
      RelayFromKeepsUsers(env, order[1..], u.users, u.downloaded);
      OnlyTopicsAddedTransitive(users, u.users, RelayFrom(env, order[1..], u.users, u.downloaded).users);
    }
  }

  /** No id is listed twice. */
  ghost predicate Distinct(ids: seq<string>) {
    forall x :: multiset(ids)[x] <= 1
  }

  /** The tail of a listing without repeats has no repeats and does not list the head again. */
  lemma DistinctTail(order: seq<string>)
    requires order != [] && Distinct(order)
    ensures Distinct(order[1..]) && order[0] !in order[1..]
  {
    assert order == [order[0]] + order[1..];
    assert multiset(order) == multiset{order[0]} + multiset(order[1..]);
    forall x ensures multiset(order[1..])[x] <= 1 {
      assert multiset(order)[x] <= 1;
    }
    assert multiset(order)[order[0]] <= 1;
  }

  /**
   * Over a listing without repeats of pending ids, a failing upload never stops the
   * loop: it visits every id and ends without error.
   */
  lemma {:induction false} RelayFromVisitsAll(env: Env, order: seq<string>, users: map<string, User>, d: map<string, DownloadedPost>)
    requires WellFormed(d)
    requires Distinct(order) && forall x :: x in order ==> x in d
    ensures RelayFrom(env, order, users, d).failure.None?
    decreases |order|
  {
    if order != [] {
      var u := RelayPost(env, users, d, d[order[0]]);
      DistinctTail(order);
      RelayFromVisitsAll(env, order[1..], u.users, u.downloaded);
    }
  }

  /**
   * A post is ready to go when its user is loaded with some destination that already
   * has a topic and accepts every send of the post, and the delete of its entry succeeds.
   */
  ghost predicate Ready(env: Env, users: map<string, User>, post: DownloadedPost) {
    && (post.isVideo ==> post.files != [])
    && post.tag in users
    && env.delPost(post.id)
    && exists j :: 0 <= j < |users[post.tag].tg| && Accepts(env, post, users[post.tag].tg[j])
  }

  /** A destination with a topic that receives every send of the post. */
  ghost predicate Accepts(env: Env, post: DownloadedPost, target: UserTg)
    requires post.isVideo ==> post.files != []
  {
    target.threadId != 0 && Deliver(env, post, target.chatId, target.threadId).1
  }

  /** Adding topics keeps a post ready: the destination that accepts it keeps its chat and topic. */
  lemma ReadyKept(env: Env, users: map<string, User>, after: map<string, User>, post: DownloadedPost)
    requires Ready(env, users, post) && OnlyTopicsAdded(users, after)
    ensures Ready(env, after, post)
  {
    var j :| 0 <= j < |users[post.tag].tg| && Accepts(env, post, users[post.tag].tg[j]);
    assert after[post.tag].tg[j] == users[post.tag].tg[j];
  }

  /** `uploadPost` of a ready post deletes its entry. */
  lemma RelayPostDeletesReady(env: Env, users: map<string, User>, d: map<string, DownloadedPost>, post: DownloadedPost)
    requires Ready(env, users, post) && post.id in d
    ensures post.id !in RelayPost(env, users, d, post).downloaded
  {
    var s0 := Start(users, d, post);
    var j :| 0 <= j < |users[post.tag].tg| && Accepts(env, post, users[post.tag].tg[j]);
    DestinationHandledOnce(env, post, s0, j, j);
    assert Delivers(env, post, Walk(env, post, s0, j), j);
    DeletedAfterAnyDelivery(env, post, s0, |s0.user.tg|);
  }

  /**
   * Over a listing without repeats of pending ids, every post that is ready when the
   * loop starts is gone when it ends, whatever the uploads of the other posts did.
   */
  lemma {:induction false} RelayFromDeliversReadyPosts(env: Env, order: seq<string>, users: map<string, User>, d: map<string, DownloadedPost>)
    requires WellFormed(d)
    requires Distinct(order) && forall x :: x in order ==> x in d
    ensures forall x :: x in order && Ready(env, users, d[x]) ==> x !in RelayFrom(env, order, users, d).downloaded
    decreases |order|
  {
    if order != [] {
      var post := d[order[0]];
      var u := RelayPost(env, users, d, post);
      var rest := RelayFrom(env, order[1..], u.users, u.downloaded);
      DistinctTail(order);
      RelayPostKeepsUsers(env, users, d, post);
      RelayFromDeliversReadyPosts(env, order[1..], u.users, u.downloaded);
      if Ready(env, users, post) {
        RelayPostDeletesReady(env, users, d, post);
      }
      forall x | x in order[1..] && Ready(env, users, d[x]) ensures x !in rest.downloaded {
        assert x in u.downloaded && u.downloaded[x] == d[x];
        ReadyKept(env, users, u.users, d[x]);
      }
    }
  }

  /** The keys snapshot lists every pending id, once, and nothing else. */
  ghost predicate ExactListing(ids: seq<string>, keys: set<string>) {
    Distinct(ids) && forall x :: x in ids <==> x in keys
  }

  /**
   * With an exact keys snapshot, `UploadTg` works through every pending post,
   * oldest first, and returns no error whatever the uploads do.
   */
  lemma UploadTgVisitsEveryPost(env: Env, users: map<string, User>, d: map<string, DownloadedPost>, ids: seq<string>)
    requires WellFormed(d)
    requires env.postKeys(d.Keys) == Some(ids) && ExactListing(ids, d.Keys)
    ensures var order := SortByCreateTime(d, ids);
      && (forall id :: id in order <==> id in d)
      && SortedByCreateTime(d, order)
      && RelayAll(env, users, d).failure.None?
    // every post ready at the start is uploaded and its entry deleted
    ensures forall id :: id in d && Ready(env, users, d[id]) ==> id !in RelayAll(env, users, d).downloaded
  {
    var order := SortByCreateTime(d, ids);
    SortIsOldestFirst(d, ids);
    forall id ensures id in order <==> id in d {
      assert id in order <==> id in multiset(order);
      assert id in ids <==> id in multiset(ids);
    }
    RelayFromVisitsAll(env, order, users, d);
    RelayFromDeliversReadyPosts(env, order, users, d);
  }

  /** `UploadTg` changes users only by adding topics, whatever the snapshot or the uploads do. */
  lemma RelayAllKeepsUsers(env: Env, users: map<string, User>, d: map<string, DownloadedPost>)
    requires WellFormed(d)
    ensures OnlyTopicsAdded(users, RelayAll(env, users, d).users)
    ensures WellFormed(RelayAll(env, users, d).downloaded)
  {
    if env.postKeys(d.Keys).Some? {
      RelayFromKeepsUsers(env, SortByCreateTime(d, env.postKeys(d.Keys).value), users, d);
    }
  }
}

=== FILE: sweep.dfy ===
/**
 * One pass of the archive loop, the body of `Start` in internal/archive/archive.go:
 * every tag of the users store is synced and, when that succeeded, followed by a
 * relay of everything pending. A failing tag is reported and the pass goes on.
 */
module Sweep {
  import opened Wrappers
  import opened Records
  import opened Oracles
  import opened Sync
  import opened Relay

  /** What the pass logged for one tag: the sync error, or the outcome of the relay after it. */
  datatype TagReport = SyncFailed(tag: string, error: SyncError) | Synced(tag: string, relayFailure: Option<RelayFailure>)

  /** The outcome of a pass: both stores, every download and send made, and one report per tag. */
  datatype Pass = Pass(users: map<string, User>, downloaded: map<string, DownloadedPost>, fetches: seq<Fetch>, sends: seq<Send>,
                       reports: seq<TagReport>, snapshotFailed: bool)

  /** `DownloadUser` leaves every user's key, name and destinations as they were. */
  lemma SyncKeepsUsers(cfg: Config, env: Env, users: map<string, User>, d: map<string, DownloadedPost>, tag: string)
    ensures UsersKept(users, SyncUser(cfg, env, users, d, tag).users)
  {
    var r := SyncUser(cfg, env, users, d, tag);
    forall t | t in users ensures r.users[t].username == users[t].username && TopicsKept(users[t], r.users[t]) {
      if t == tag {
        assert r.users[t].tg == users[t].tg;
      }
    }
  }

  /** `u` is `before` with at most its topics changed: same name, id and watermark. */
  ghost predicate SameRecord(before: User, after: User) {
    after.id == before.id && after.lastUpdate == before.lastUpdate && after.username == before.username
  }

  /** What one turn of the tag loop leaves: both stores, what it downloaded and sent, and its report. */
  datatype Turn = Turn(users: map<string, User>, downloaded: map<string, DownloadedPost>, fetches: seq<Fetch>, sends: seq<Send>, report: TagReport)

  /** One turn of the tag loop of `Start`: `DownloadUser(tag)`, then `UploadTg()` if that succeeded. */
  function SweepTag(cfg: Config, env: Env, tag: string, users: map<string, User>, d: map<string, DownloadedPost>): (r: Turn)
    requires WellFormed(d)
    ensures r.report.tag == tag
    ensures WellFormed(r.downloaded)
  {
    var s := SyncUser(cfg, env, users, d, tag);
    SyncKeepsWellFormed(cfg, env, users, d, tag);
    if s.failure.Some? then Turn(s.users, s.downloaded, s.fetches, [], SyncFailed(tag, s.failure.value))
    else
      var u := RelayAll(env, s.users, s.downloaded);
      RelayAllKeepsUsers(env, s.users, s.downloaded);
      Turn(u.users, u.downloaded, s.fetches, u.sends, Synced(tag, u.failure))
  }

  /** A failed sync is reported and skips the relay: nothing is sent, and its partial effects stay. */
  lemma SweepTagSkipsRelayOnFailure(cfg: Config, env: Env, tag: string, users: map<string, User>, d: map<string, DownloadedPost>)
    requires WellFormed(d)
    ensures var r := SweepTag(cfg, env, tag, users, d);
      var s := SyncUser(cfg, env, users, d, tag);
      && (r.report.SyncFailed? <==> s.failure.Some?)
      && (r.report.SyncFailed? ==> r.report.error == s.failure.value && r.sends == [] && r.users == s.users && r.downloaded == s.downloaded)
  {
  }

  /**
   * A successful sync is followed by `UploadTg`, over the pending posts of every
   * tag: the turn ends in the stores and sends of that relay, and reports its outcome.
   */
  lemma SweepTagRelaysOnSuccess(cfg: Config, env: Env, tag: string, users: map<string, User>, d: map<string, DownloadedPost>)
    requires WellFormed(d)
    requires SyncUser(cfg, env, users, d, tag).failure.None?
    ensures var s := SyncUser(cfg, env, users, d, tag);
      && WellFormed(s.downloaded)
      && var u := RelayAll(env, s.users, s.downloaded);
         var r := SweepTag(cfg, env, tag, users, d);
         && r.users == u.users && r.downloaded == u.downloaded && r.fetches == s.fetches && r.sends == u.sends
         && r.report == Synced(tag, u.failure)
  {
    SyncKeepsWellFormed(cfg, env, users, d, tag);
  }

  /**
   * With an exact listing of what is pending after a successful sync, the relay of
   * that turn works through every pending post, of any tag, oldest first, and the
   * tag is reported with no relay error.
   */
  lemma SweepTagRelaysEveryPending(cfg: Config, env: Env, tag: string, users: map<string, User>, d: map<string, DownloadedPost>, ids: seq<string>)
    requires WellFormed(d)
    requires SyncUser(cfg, env, users, d, tag).failure.None?
    requires var s := SyncUser(cfg, env, users, d, tag);
      env.postKeys(s.downloaded.Keys) == Some(ids) && ExactListing(ids, s.downloaded.Keys)
    ensures var s := SyncUser(cfg, env, users, d, tag);
      var order := SortByCreateTime(s.downloaded, ids);
      && (forall id :: id in order <==> id in s.downloaded)
      && SortedByCreateTime(s.downloaded, order)
      && SweepTag(cfg, env, tag, users, d).report == Synced(tag, None)
    // every post ready after the sync, old or new, is uploaded and its entry deleted
    ensures var s := SyncUser(cfg, env, users, d, tag);
      forall id :: id in s.downloaded && Ready(env, s.users, s.downloaded[id]) ==> id !in SweepTag(cfg, env, tag, users, d).downloaded
  {
    var s := SyncUser(cfg, env, users, d, tag);
    SweepTagRelaysOnSuccess(cfg, env, tag, users, d);
    UploadTgVisitsEveryPost(env, s.users, s.downloaded, ids);
  }

  /**
   * One turn leaves every user's name, destinations and topics; other users keep
   * their id and watermark; the relay after a sync does not move the watermark
   * the sync set.
   */
  lemma SweepTagKeepsUsers(cfg: Config, env: Env, tag: string, users: map<string, User>, d: map<string, DownloadedPost>)
    requires WellFormed(d)
    ensures var r := SweepTag(cfg, env, tag, users, d);
      && UsersKept(users, r.users)
      && (forall t :: t in users && t != tag ==> SameRecord(users[t], r.users[t]))
      && (tag in users && r.report.Synced? ==> r.users[tag].lastUpdate == env.clock(tag))
      && (tag in users && r.report.SyncFailed? ==> r.users[tag].lastUpdate == users[tag].lastUpdate)
  {
    var s := SyncUser(cfg, env, users, d, tag);
    SyncKeepsWellFormed(cfg, env, users, d, tag);
    SyncKeepsUsers(cfg, env, users, d, tag);
    if s.failure.None? {
      RelayAllKeepsUsers(env, s.users, s.downloaded);
      UsersKeptTransitive(users, s.users, RelayAll(env, s.users, s.downloaded).users);
    }
  }

  /** The tag loop of `Start` over `tags`. */
  function SweepTags(cfg: Config, env: Env, tags: seq<string>, users: map<string, User>, d: map<string, DownloadedPost>): (r: Pass)
    requires WellFormed(d)
    // one report per tag, in order: no failure stops the loop
    ensures |r.reports| == |tags| && forall k :: 0 <= k < |tags| ==> r.reports[k].tag == tags[k]
    ensures !r.snapshotFailed
    ensures WellFormed(r.downloaded)
    decreases |tags|
  {
    if tags == [] then Pass(users, d, [], [], [], false)
    else
      var t := SweepTag(cfg, env, tags[0], users, d);
      var rest := SweepTags(cfg, env, tags[1..], t.users, t.downloaded);
      Pass(rest.users, rest.downloaded, t.fetches + rest.fetches, t.sends + rest.sends, [t.report] + rest.reports, false)
  }

  /** The tag loop takes the first tag's turn, then goes on with the rest. */
  lemma SweepTagsCons(cfg: Config, env: Env, tags: seq<string>, users: map<string, User>, d: map<string, DownloadedPost>)
    requires WellFormed(d) && tags != []
    ensures var t := SweepTag(cfg, env, tags[0], users, d);
      var rest := SweepTags(cfg, env, tags[1..], t.users, t.downloaded);
      SweepTags(cfg, env, tags, users, d)
      == Pass(rest.users, rest.downloaded, t.fetches + rest.fetches, t.sends + rest.sends, [t.report] + rest.reports, false)
  {
  }

  /** No user loses its name, destinations or topics in the tag loop. */
  lemma {:induction false} SweepKeepsUsers(cfg: Config, env: Env, tags: seq<string>, users: map<string, User>, d: map<string, DownloadedPost>)
    requires WellFormed(d)
    ensures UsersKept(users, SweepTags(cfg, env, tags, users, d).users)
    decreases |tags|
  {
    if tags != [] {
      var t := SweepTag(cfg, env, tags[0], users, d);
      SweepTagKeepsUsers(cfg, env, tags[0], users, d);
      SweepKeepsUsers(cfg, env, tags[1..], t.users, t.downloaded);
      UsersKeptTransitive(users, t.users, SweepTags(cfg, env, tags[1..], t.users, t.downloaded).users);
    }
  }

  /** One tick of `Start`: a keys snapshot of the users store, then the tag loop. */
  function Tick(cfg: Config, env: Env, users: map<string, User>, d: map<string, DownloadedPost>): (r: Pass)
    requires WellFormed(d)
    // a failed snapshot skips the tick without touching anything
    ensures r.snapshotFailed <==> env.userKeys(users.Keys).None?
    ensures r.snapshotFailed ==> r == Pass(users, d, [], [], [], true)
    // otherwise every listed tag gets its turn and its report
    ensures !r.snapshotFailed ==> |r.reports| == |env.userKeys(users.Keys).value|
                                  && forall k :: 0 <= k < |r.reports| ==> r.reports[k].tag == env.userKeys(users.Keys).value[k]
    ensures WellFormed(r.downloaded)
  {
    match env.userKeys(users.Keys)
    case None => Pass(users, d, [], [], [], true)
    case Some(tags) => SweepTags(cfg, env, tags, users, d)
  }

  /** No user loses its name, destinations or topics in a tick. */
  lemma TickKeepsUsers(cfg: Config, env: Env, users: map<string, User>, d: map<string, DownloadedPost>)
    requires WellFormed(d)
    ensures UsersKept(users, Tick(cfg, env, users, d).users)
  {
    if env.userKeys(users.Keys).Some? {
      SweepKeepsUsers(cfg, env, env.userKeys(users.Keys).value, users, d);
    }
  }

  /** A tag the loop does not visit keeps its id and watermark. */
  lemma {:induction false} SweepLeavesOthers(cfg: Config, env: Env, tags: seq<string>, users: map<string, User>, d: map<string, DownloadedPost>, t: string)
    requires WellFormed(d)
    requires t in users && t !in tags
    ensures t in SweepTags(cfg, env, tags, users, d).users
    ensures SameRecord(users[t], SweepTags(cfg, env, tags, users, d).users[t])
    decreases |tags|
  {
    if tags != [] {
      var s := SweepTag(cfg, env, tags[0], users, d);
      SweepTagKeepsUsers(cfg, env, tags[0], users, d);
      assert t !in tags[1..];
      SweepLeavesOthers(cfg, env, tags[1..], s.users, s.downloaded, t);
    }
  }

  /** The report and watermark of the first tag are those of its own turn. */
  lemma FirstTagWatermark(cfg: Config, env: Env, tags: seq<string>, users: map<string, User>, d: map<string, DownloadedPost>)
    requires WellFormed(d)
    requires Distinct(tags) && tags != [] && tags[0] in users
    ensures var r := SweepTags(cfg, env, tags, users, d);
      && tags[0] in r.users
      && (r.reports[0].Synced? ==> r.users[tags[0]].lastUpdate == env.clock(tags[0]))
      && (r.reports[0].SyncFailed? ==> r.users[tags[0]].lastUpdate == users[tags[0]].lastUpdate)
  {
    var s := SweepTag(cfg, env, tags[0], users, d);
    SweepTagKeepsUsers(cfg, env, tags[0], users, d);
    DistinctTail(tags);
    SweepLeavesOthers(cfg, env, tags[1..], s.users, s.downloaded, tags[0]);
    SweepTagsCons(cfg, env, tags, users, d);
  }

  /**
   * After a pass over tags without repeats, each tag's watermark is the instant its
   * scan started when its sync succeeded, and the old one when it failed; the
   * relays and the later tags do not move it.
   */
  lemma {:induction false} SweepWatermarks(cfg: Config, env: Env, tags: seq<string>, users: map<string, User>, d: map<string, DownloadedPost>, k: nat)
    requires WellFormed(d)
    requires Distinct(tags) && k < |tags| && tags[k] in users
    ensures var r := SweepTags(cfg, env, tags, users, d);
      && tags[k] in r.users
      && (r.reports[k].Synced? ==> r.users[tags[k]].lastUpdate == env.clock(tags[k]))
      && (r.reports[k].SyncFailed? ==> r.users[tags[k]].lastUpdate == users[tags[k]].lastUpdate)
    decreases |tags|
  {
    if k == 0 {
      FirstTagWatermark(cfg, env, tags, users, d);
    } else {
      var s := SweepTag(cfg, env, tags[0], users, d);
      SweepTagKeepsUsers(cfg, env, tags[0], users, d);
      DistinctTail(tags);
      assert tags[k] == tags[1..][k - 1];
      SweepWatermarks(cfg, env, tags[1..], s.users, s.downloaded, k - 1);
      SweepTagsCons(cfg, env, tags, users, d);
      var rest := SweepTags(cfg, env, tags[1..], s.users, s.downloaded);
      assert ([s.report] + rest.reports)[k] == rest.reports[k - 1];
    }
  }
}

=== FILE: sync.dfy ===
/**
 * The download stage, `DownloadUser` in internal/archive/archive.go, as functions
 * of the stores and the collaborators: resolve the user id if it is missing, walk
 * the feed newest first until the first post older than the watermark, fetch each
 * post's media and record it as pending, and finally move the watermark to the
 * instant the scan started. Any error ends the scan at once.
 */
module Sync {
  import opened Wrappers
  import opened Records
  import opened Oracles
  import opened Paths

  /** Why `DownloadUser` returned an error. */
  datatype SyncError =
    | UserMissing
    | LookupFailed
    | UserWriteFailed
    | MkdirFailed
    | FeedFailed
    | MissingContent(postId: string)
    | FetchFailed(postId: string)
    | PostWriteFailed(postId: string)

  /** The outcome of walking (part of) a feed: the pending store, the fetches made, and the error that ended it. */
  datatype Scan = Scan(downloaded: map<string, DownloadedPost>, fetches: seq<Fetch>, failure: Option<SyncError>)

  /** The outcome of `DownloadUser`: both stores, the fetches made, and the error returned. */
  datatype Sync = Sync(users: map<string, User>, downloaded: map<string, DownloadedPost>, fetches: seq<Fetch>, failure: Option<SyncError>)

  function NameOf(cfg: Config, env: Env, tag: string, username: string, p: Post): PostName {
    PostName(cfg.data, tag, username, env.dateOnly(p.createTime), p.id)
  }

  /**
   * The picture loop from index `i` on: the fetches it makes, one per url in
   * index order, stopping after the first that fails, and whether all succeeded.
   */
  function PictureFetches(env: Env, name: PostName, urls: seq<string>, i: nat): (r: (seq<Fetch>, bool))
    requires i <= |urls|
    // one fetch per remaining url when all succeed, and at least one fetch when one fails
    ensures |r.0| <= |urls| - i && (r.1 ==> |r.0| == |urls| - i) && (!r.1 ==> r.0 != [])
    decreases |urls| - i
  {
    if i == |urls| then ([], true)
    else
      var f := Fetch(PicturePath(name, i), urls[i]);
      if !env.fetch(f) then ([f], false)
      else
        var rest := PictureFetches(env, name, urls, i + 1);
        ([f] + rest.0, rest.1)
  }

  /** The picture loop fetches the urls in index order, one fetch per url, up to where it stops. */
  lemma {:induction false} PictureFetchesInOrder(env: Env, name: PostName, urls: seq<string>, i: nat)
    requires i <= |urls|
    ensures var r := PictureFetches(env, name, urls, i);
      && |r.0| <= |urls| - i
      && forall k :: 0 <= k < |r.0| ==> r.0[k] == Fetch(PicturePath(name, i + k), urls[i + k])
    decreases |urls| - i
  {
    if i < |urls| && env.fetch(Fetch(PicturePath(name, i), urls[i])) {
      PictureFetchesInOrder(env, name, urls, i + 1);
      var r, rest := PictureFetches(env, name, urls, i), PictureFetches(env, name, urls, i + 1);
      assert r.0 == [Fetch(PicturePath(name, i), urls[i])] + rest.0;
      forall k | 1 <= k < |r.0|
        ensures r.0[k] == Fetch(PicturePath(name, i + k), urls[i + k])
      {
        assert r.0[k] == rest.0[k - 1];
      }
    }
  }

  /** Every fetch in `fs` succeeds. */
  predicate AllFetched(env: Env, fs: seq<Fetch>) {
    forall k :: 0 <= k < |fs| ==> env.fetch(fs[k])
  }

  /** A fetch list that starts with `f` is all fetched exactly when `f` and the rest are. */
  lemma AllFetchedCons(env: Env, f: Fetch, fs: seq<Fetch>)
    ensures AllFetched(env, [f] + fs) <==> env.fetch(f) && AllFetched(env, fs)
  {
    var all := [f] + fs;
    if AllFetched(env, all) {
      forall k | 0 <= k < |fs| ensures env.fetch(fs[k]) {
        assert all[k + 1] == fs[k];
      }
      assert all[0] == f;
    }
    if env.fetch(f) && AllFetched(env, fs) {
      forall k | 0 <= k < |all| ensures env.fetch(all[k]) {
        if k > 0 {
          assert all[k] == fs[k - 1];
        }
      }
    }
  }

  /** The picture loop succeeds exactly when it fetched every url and each fetch succeeded. */
  lemma {:induction false} PictureFetchesSucceedIff(env: Env, name: PostName, urls: seq<string>, i: nat)
    requires i <= |urls|
    ensures var r := PictureFetches(env, name, urls, i);
      r.1 <==> |r.0| == |urls| - i && AllFetched(env, r.0)
    decreases |urls| - i
  {
    if i < |urls| {
      var f := Fetch(PicturePath(name, i), urls[i]);
      var rest := PictureFetches(env, name, urls, i + 1);
      if env.fetch(f) {
        PictureFetchesSucceedIff(env, name, urls, i + 1);
        AllFetchedCons(env, f, rest.0);
      } else {
        AllFetchedCons(env, f, []);
      }
    }
  }

  /** When the picture loop fails, its last fetch is the one that failed, and all before it succeeded. */
  lemma {:induction false} PictureFetchesFailAtLast(env: Env, name: PostName, urls: seq<string>, i: nat)
    requires i <= |urls|
    ensures var r := PictureFetches(env, name, urls, i);
      !r.1 ==> r.0 != [] && !env.fetch(r.0[|r.0| - 1]) && AllFetched(env, r.0[..|r.0| - 1])
    decreases |urls| - i
  {
    if i < |urls| {
      var f := Fetch(PicturePath(name, i), urls[i]);
      var r := PictureFetches(env, name, urls, i);
      if env.fetch(f) {
        var rest := PictureFetches(env, name, urls, i + 1);
        PictureFetchesFailAtLast(env, name, urls, i + 1);
        if !r.1 {
          assert r.0[..|r.0| - 1] == [f] + rest.0[..|rest.0| - 1];
          AllFetchedCons(env, f, rest.0[..|rest.0| - 1]);
        }
      } else {
        assert r.0[..0] == [];
      }
    }
  }

  /**
   * The pending entry a post gets: a video lists its one file; a picture post lists
   * the `pictures` slice, which the loop never appends to, so it is empty.
   */
  function EntryFor(cfg: Config, env: Env, tag: string, username: string, p: Post): (e: DownloadedPost)
    // stored under the post's id, with its tag, kind and creation time
    ensures e.id == p.id && e.tag == tag && e.isVideo == p.isVideo && e.createTime == p.createTime
    // a video lists one file; a picture post lists none
    ensures e.isVideo ==> |e.files| == 1
    ensures !e.isVideo ==> e.files == []
  {
    if p.isVideo then DownloadedPost(p.id, tag, [VideoPath(NameOf(cfg, env, tag, username, p))], true, p.createTime)
    else DownloadedPost(p.id, tag, [], false, p.createTime)
  }

  /** The one file a video entry lists lies in its tag's directory. */
  lemma EntryFileInTagDir(cfg: Config, env: Env, tag: string, username: string, p: Post)
    requires p.isVideo
    ensures TagDir(cfg.data, tag) + "/" <= EntryFor(cfg, env, tag, username, p).files[0]
  {
    VideoPathInTagDir(NameOf(cfg, env, tag, username, p));
  }

  /** The fetches one post makes, and whether they all succeeded. */
  function FetchPost(cfg: Config, env: Env, tag: string, username: string, p: Post): (r: (seq<Fetch>, bool))
    requires p.urls != []
    // at least one fetch, at most one per url, each of a post url
    ensures 1 <= |r.0| <= |p.urls|
    ensures forall k :: 0 <= k < |r.0| ==> r.0[k].url in p.urls
    // a video is one fetch, of its first url
    ensures p.isVideo ==> |r.0| == 1 && r.0[0].url == p.urls[0]
  {
    var name := NameOf(cfg, env, tag, username, p);
    if p.isVideo then
      var f := Fetch(VideoPath(name), p.urls[0]);
      ([f], env.fetch(f))
    else
      PictureFetchesInOrder(env, name, p.urls, 0);
      PictureFetches(env, name, p.urls, 0)
  }

  /** The file a video entry lists is the file its one fetch downloaded. */
  lemma VideoEntryIsFetched(cfg: Config, env: Env, tag: string, username: string, p: Post)
    requires p.isVideo && p.urls != []
    ensures EntryFor(cfg, env, tag, username, p).files == [FetchPost(cfg, env, tag, username, p).0[0].path]
  {
  }

  /** Every file one post is fetched into lies in its tag's directory. */
  lemma FetchPostInTagDir(cfg: Config, env: Env, tag: string, username: string, p: Post)
    requires p.urls != []
    ensures forall f :: f in FetchPost(cfg, env, tag, username, p).0 ==> TagDir(cfg.data, tag) + "/" <= f.path
  {
    var name := NameOf(cfg, env, tag, username, p);
    if p.isVideo {
      VideoPathInTagDir(name);
    } else {
      PictureFetchesInOrder(env, name, p.urls, 0);
      forall k: nat | k < |p.urls| ensures TagDir(cfg.data, tag) + "/" <= PicturePath(name, k) {
        PicturePathInTagDir(name, k);
      }
    }
  }

  /** The feed loop of `DownloadUser` over `items`, starting from the pending store `d`. */
  function ScanFeed(cfg: Config, env: Env, tag: string, user: User, items: seq<FeedItem>, d: map<string, DownloadedPost>): (r: Scan)
    // the only errors a scan ends with are the feed's own and a post's
    ensures r.failure.Some? ==> r.failure.value.FeedFailed? || r.failure.value.MissingContent?
                                || r.failure.value.FetchFailed? || r.failure.value.PostWriteFailed?
    decreases |items|
  {
    if items == [] then Scan(d, [], None)
    else match items[0]
      case Fault => Scan(d, [], Some(FeedFailed))
      case Item(p) =>
        if Before(p.createTime, user.lastUpdate) then Scan(d, [], None)
        else if p.urls == [] then Scan(d, [], Some(MissingContent(p.id)))
        else
          var got := FetchPost(cfg, env, tag, user.username, p);
          var entry := EntryFor(cfg, env, tag, user.username, p);
          if !got.1 then Scan(d, got.0, Some(FetchFailed(p.id)))
          else if !env.putPost(p.id, entry) then Scan(d, got.0, Some(PostWriteFailed(p.id)))
          else
            var rest := ScanFeed(cfg, env, tag, user, items[1..], d[p.id := entry]);
            Scan(rest.downloaded, got.0 + rest.fetches, rest.failure)
  }

  /** `DownloadUser(tag)` on the stores `users` and `d`. */
  function SyncUser(cfg: Config, env: Env, users: map<string, User>, d: map<string, DownloadedPost>, tag: string): (r: Sync)
    // only the scanned tag's record changes, and never its name or destinations
    ensures r.users.Keys == users.Keys
    ensures forall t :: t in users && t != tag ==> r.users[t] == users[t]
    ensures tag in users ==> r.users[tag].username == users[tag].username && r.users[tag].tg == users[tag].tg
    // an unknown tag, or a failed lookup, changes no store
    ensures tag !in users ==> r == Sync(users, d, [], Some(UserMissing))
    ensures r.failure == Some(LookupFailed) ==> r.users == users && r.downloaded == d && r.fetches == []
    // only a user without an id is looked up, so only such a user's lookup can fail
    ensures r.failure == Some(LookupFailed) ==> tag in users && users[tag].id == "" && env.details(users[tag].username).None?
    // an id is looked up at most once: a resolved id is kept, a new one is stored before the feed is read
    ensures tag in users && users[tag].id != "" ==> r.users[tag].id == users[tag].id
    ensures tag in users && users[tag].id == "" && env.details(users[tag].username).Some?
              && env.putUser(tag, users[tag].(id := env.details(users[tag].username).value))
            ==> r.users[tag].id == env.details(users[tag].username).value
    // the watermark moves, to the instant the scan started, only when the whole scan succeeded
    ensures r.failure.None? ==> tag in users && r.users[tag].lastUpdate == env.clock(tag)
    ensures r.failure.Some? && tag in users ==> r.users[tag].lastUpdate == users[tag].lastUpdate
  {
    if tag !in users then Sync(users, d, [], Some(UserMissing))
    else
      var stored := users[tag];
      var lookup := if stored.id == "" then env.details(stored.username) else Some(stored.id);
      if lookup.None? then Sync(users, d, [], Some(LookupFailed))
      else
        var user := stored.(id := lookup.value);
        if stored.id == "" && !env.putUser(tag, user) then Sync(users, d, [], Some(UserWriteFailed))
        else
          var users1 := users[tag := user];
          if stored.id == "" && !env.mkdir(TagDir(cfg.data, tag)) then Sync(users1, d, [], Some(MkdirFailed))
          else
            var scan := ScanFeed(cfg, env, tag, user, env.feed(user.id), d);
            if scan.failure.Some? then Sync(users1, scan.downloaded, scan.fetches, scan.failure)
            else
              var done := user.(lastUpdate := env.clock(tag));
              if !env.putUser(tag, done) then Sync(users1, scan.downloaded, scan.fetches, Some(UserWriteFailed))
              else Sync(users[tag := done], scan.downloaded, scan.fetches, None)
  }

  /**
   * A user without an id is resolved before its feed is read: the looked-up id is
   * stored, then the tag directory is created. A failed write of the id changes no
   * store; a failed directory creation keeps the stored id but reads no feed.
   * Nothing is fetched or recorded unless both succeeded.
   */
  lemma SyncResolvesIdBeforeFeed(cfg: Config, env: Env, users: map<string, User>, d: map<string, DownloadedPost>, tag: string)
    requires tag in users && users[tag].id == ""
    ensures var r := SyncUser(cfg, env, users, d, tag);
      var u := users[tag];
      var looked := env.details(u.username);
      && (looked.Some? && !env.putUser(tag, u.(id := looked.value)) ==> r == Sync(users, d, [], Some(UserWriteFailed)))
      && (looked.Some? && env.putUser(tag, u.(id := looked.value)) && !env.mkdir(TagDir(cfg.data, tag)) ==>
            r == Sync(users[tag := u.(id := looked.value)], d, [], Some(MkdirFailed)))
      && (r.failure.None? || r.fetches != [] || r.downloaded != d || r.failure.value.FeedFailed?
          || r.failure.value.MissingContent? || r.failure.value.FetchFailed? || r.failure.value.PostWriteFailed? ==>
            looked.Some? && env.putUser(tag, u.(id := looked.value)) && env.mkdir(TagDir(cfg.data, tag)))
  {
  }

  /** A directory is created only for a user whose id was just resolved. */
  /**
   * Once the id is settled (already stored, or looked up, stored and its directory
   * created), `DownloadUser` scans the feed of that id: the pending store and the
   * fetches are the scan's, a scan error is returned as is, and after a clean scan
   * the outcome is the write of the user with the new watermark.
   */
  lemma SyncScansResolvedFeed(cfg: Config, env: Env, users: map<string, User>, d: map<string, DownloadedPost>, tag: string)
    requires tag in users
    requires var u := users[tag];
      u.id == "" ==> var looked := env.details(u.username);
        looked.Some? && env.putUser(tag, u.(id := looked.value)) && env.mkdir(TagDir(cfg.data, tag))
    ensures var u := users[tag];
      var user := if u.id == "" then u.(id := env.details(u.username).value) else u;
      var scan := ScanFeed(cfg, env, tag, user, env.feed(user.id), d);
      var r := SyncUser(cfg, env, users, d, tag);
      var done := user.(lastUpdate := env.clock(tag));
      && r.downloaded == scan.downloaded && r.fetches == scan.fetches
      && (scan.failure.Some? ==> r.failure == scan.failure && r.users == users[tag := user])
      && (scan.failure.None? && env.putUser(tag, done) ==> r.failure.None? && r.users == users[tag := done])
      && (scan.failure.None? && !env.putUser(tag, done) ==> r.failure == Some(UserWriteFailed) && r.users == users[tag := user])
  {
  }

  lemma MkdirOnlyForNewId(cfg: Config, env: Env, users: map<string, User>, d: map<string, DownloadedPost>, tag: string)
    ensures SyncUser(cfg, env, users, d, tag).failure == Some(MkdirFailed) ==> tag in users && users[tag].id == ""
  {
  }

  /** `e`, stored under `id`, is the entry the scan records for one of the posts among `items`. */
  ghost predicate RecordedFrom(cfg: Config, env: Env, tag: string, username: string, items: seq<FeedItem>, id: string, e: DownloadedPost) {
    exists k :: 0 <= k < |items| && items[k].Item? && items[k].post.id == id && e == EntryFor(cfg, env, tag, username, items[k].post)
  }

  /**
   * A scan keeps every pending entry it started with, and every entry it adds or
   * replaces is the entry of a post it read: a video with exactly its one video
   * path, a picture post with no files, both under the post's id and tag.
   */
  lemma {:induction false} ScanRecords(cfg: Config, env: Env, tag: string, user: User, items: seq<FeedItem>, d: map<string, DownloadedPost>)
    ensures var r := ScanFeed(cfg, env, tag, user, items, d);
      && d.Keys <= r.downloaded.Keys
      && forall id :: id in r.downloaded ==>
           (id in d && r.downloaded[id] == d[id]) || RecordedFrom(cfg, env, tag, user.username, items, id, r.downloaded[id])
    decreases |items|
  {
    if items != [] && items[0].Item? {
      var p := items[0].post;
      if !Before(p.createTime, user.lastUpdate) && p.urls != [] {
        var entry := EntryFor(cfg, env, tag, user.username, p);
        if FetchPost(cfg, env, tag, user.username, p).1 && env.putPost(p.id, entry) {
          var d1 := d[p.id := entry];
          ScanRecords(cfg, env, tag, user, items[1..], d1);
          var r := ScanFeed(cfg, env, tag, user, items, d);
          forall id | id in r.downloaded
            ensures (id in d && r.downloaded[id] == d[id]) || RecordedFrom(cfg, env, tag, user.username, items, id, r.downloaded[id])
          {
            if RecordedFrom(cfg, env, tag, user.username, items[1..], id, r.downloaded[id]) {
              var k :| 0 <= k < |items[1..]| && items[1..][k].Item? && items[1..][k].post.id == id
                       && r.downloaded[id] == EntryFor(cfg, env, tag, user.username, items[1..][k].post);
              assert items[k + 1] == items[1..][k];
            } else if id == p.id {
              assert items[0].Item? && items[0].post.id == id;
            }
          }
        }
      }
    }
  }

  /** A scan preserves the store invariant: entries under their own id, videos with a file. */
  lemma ScanKeepsWellFormed(cfg: Config, env: Env, tag: string, user: User, items: seq<FeedItem>, d: map<string, DownloadedPost>)
    requires WellFormed(d)
    ensures var r := ScanFeed(cfg, env, tag, user, items, d);
      WellFormed(r.downloaded) && d.Keys <= r.downloaded.Keys
  {
    ScanRecords(cfg, env, tag, user, items, d);
  }

  /**
   * The scan stops at a post older than the watermark: that post and everything the
   * feed yields after it have no effect, as if the feed ended just before it.
   */
  lemma {:induction false} ScanStopsAtOlderPost(cfg: Config, env: Env, tag: string, user: User, items: seq<FeedItem>, d: map<string, DownloadedPost>, k: nat)
    requires k < |items| && items[k].Item? && Before(items[k].post.createTime, user.lastUpdate)
    ensures ScanFeed(cfg, env, tag, user, items, d) == ScanFeed(cfg, env, tag, user, items[..k], d)
    decreases k
  {
    if k > 0 {
      assert items[..k][0] == items[0];
      assert items[..k][1..] == items[1..][..k - 1];
      if items[0].Item? {
        var p := items[0].post;
        var entry := EntryFor(cfg, env, tag, user.username, p);
        ScanStopsAtOlderPost(cfg, env, tag, user, items[1..], d[p.id := entry], k - 1);
      }
    }
  }

  lemma PrefixAfter<T>(c: seq<T>, a: seq<T>, b: seq<T>)
    requires a <= b
    ensures c + a <= c + b
  {
    assert (c + b)[..|c + a|] == c + a;
  }

  /**
   * A later error does not undo earlier work: whatever the scan of the first `k`
   * items recorded and fetched, the scan of the whole feed recorded and fetched too.
   */
  lemma {:induction false} ScanKeepsEarlierWork(cfg: Config, env: Env, tag: string, user: User, items: seq<FeedItem>, d: map<string, DownloadedPost>, k: nat)
    requires k <= |items|
    ensures var prefix, whole := ScanFeed(cfg, env, tag, user, items[..k], d), ScanFeed(cfg, env, tag, user, items, d);
      prefix.downloaded.Keys <= whole.downloaded.Keys && prefix.fetches <= whole.fetches
    decreases k
  {
    if k == 0 {
      ScanRecords(cfg, env, tag, user, items, d);
    } else {
      assert items[..k][0] == items[0];
      assert items[..k][1..] == items[1..][..k - 1];
      if items[0].Item? {
        var p := items[0].post;
        var entry := EntryFor(cfg, env, tag, user.username, p);
        if !Before(p.createTime, user.lastUpdate) && p.urls != [] && FetchPost(cfg, env, tag, user.username, p).1 && env.putPost(p.id, entry) {
          var got := FetchPost(cfg, env, tag, user.username, p);
          var d1 := d[p.id := entry];
          ScanKeepsEarlierWork(cfg, env, tag, user, items[1..], d1, k - 1);
          var prefix, whole := ScanFeed(cfg, env, tag, user, items[1..][..k - 1], d1), ScanFeed(cfg, env, tag, user, items[1..], d1);
          PrefixAfter(got.0, prefix.fetches, whole.fetches);
        }
      }
    }
  }

  /**
   * An error ends the scan: whatever the feed would have yielded after the item
   * that failed has no effect, neither entries nor fetches nor another error.
   */
  lemma {:induction false} ScanAbortsAtError(cfg: Config, env: Env, tag: string, user: User, a: seq<FeedItem>, b: seq<FeedItem>, d: map<string, DownloadedPost>)
    requires ScanFeed(cfg, env, tag, user, a, d).failure.Some?
    ensures ScanFeed(cfg, env, tag, user, a + b, d) == ScanFeed(cfg, env, tag, user, a, d)
    decreases |a|
  {
    assert (a + b)[0] == a[0];
    if a[0].Item? {
      var p := a[0].post;
      var entry := EntryFor(cfg, env, tag, user.username, p);
      if !Before(p.createTime, user.lastUpdate) && p.urls != [] && FetchPost(cfg, env, tag, user.username, p).1 && env.putPost(p.id, entry) {
        assert (a + b)[1..] == a[1..] + b;
        ScanAbortsAtError(cfg, env, tag, user, a[1..], b, d[p.id := entry]);
      }
    }
  }

  /** No post reached by the scan is older than the watermark, up to and including item `k`. */
  ghost predicate ReachedThrough(items: seq<FeedItem>, watermark: int, k: nat)
    requires k < |items|
  {
    forall j :: 0 <= j <= k ==> items[j].Item? && !Before(items[j].post.createTime, watermark)
  }

  /** A scan that ends without error records every post it read before reaching the watermark. */
  lemma {:induction false} ScanRecordsEveryReachedPost(cfg: Config, env: Env, tag: string, user: User, items: seq<FeedItem>, d: map<string, DownloadedPost>)
    requires ScanFeed(cfg, env, tag, user, items, d).failure.None?
    ensures forall k :: 0 <= k < |items| && ReachedThrough(items, user.lastUpdate, k) ==>
              items[k].post.id in ScanFeed(cfg, env, tag, user, items, d).downloaded
    decreases |items|
  {
    if items != [] && items[0].Item? && !Before(items[0].post.createTime, user.lastUpdate) {
      var p := items[0].post;
      var d1 := d[p.id := EntryFor(cfg, env, tag, user.username, p)];
      ScanRecordsEveryReachedPost(cfg, env, tag, user, items[1..], d1);
      ScanRecords(cfg, env, tag, user, items[1..], d1);
      forall k | 1 <= k < |items| && ReachedThrough(items, user.lastUpdate, k)
        ensures items[k].post.id in ScanFeed(cfg, env, tag, user, items, d).downloaded
      {
        assert ReachedThrough(items[1..], user.lastUpdate, k - 1) by {
          forall j | 0 <= j <= k - 1 ensures items[1..][j].Item? && !Before(items[1..][j].post.createTime, user.lastUpdate) {
            assert items[1..][j] == items[j + 1];
          }
        }
        assert items[1..][k - 1] == items[k];
      }
    }
  }

  /**
   * The zero watermark `/add` stores puts no lower bound on the first scan: if it
   * succeeds, every post of the feed (none dated before year 1) is recorded.
   */
  lemma {:induction false} ZeroWatermarkReadsWholeFeed(cfg: Config, env: Env, tag: string, user: User, items: seq<FeedItem>, d: map<string, DownloadedPost>)
    requires user.lastUpdate == ZeroTime
    requires forall k :: 0 <= k < |items| && items[k].Item? ==> items[k].post.createTime >= ZeroTimeUnix
    requires ScanFeed(cfg, env, tag, user, items, d).failure.None?
    ensures forall k :: 0 <= k < |items| ==> items[k].Item? && items[k].post.id in ScanFeed(cfg, env, tag, user, items, d).downloaded
    decreases |items|
  {
    if items != [] {
      var p := items[0].post;
      var d1 := d[p.id := EntryFor(cfg, env, tag, user.username, p)];
      ZeroWatermarkReadsWholeFeed(cfg, env, tag, user, items[1..], d1);
      ScanRecords(cfg, env, tag, user, items[1..], d1);
      forall k | 1 <= k < |items| ensures items[k].Item? && items[k].post.id in ScanFeed(cfg, env, tag, user, items, d).downloaded {
        assert items[1..][k - 1] == items[k];
      }
    }
  }

  /** `DownloadUser` keeps the store invariant, and keeps every pending entry it found. */
  lemma SyncKeepsWellFormed(cfg: Config, env: Env, users: map<string, User>, d: map<string, DownloadedPost>, tag: string)
    requires WellFormed(d)
    ensures var r := SyncUser(cfg, env, users, d, tag);
      WellFormed(r.downloaded) && d.Keys <= r.downloaded.Keys
  {
    if tag in users {
      var stored := users[tag];
      var lookup := if stored.id == "" then env.details(stored.username) else Some(stored.id);
      if lookup.Some? {
        var user := stored.(id := lookup.value);
        ScanKeepsWellFormed(cfg, env, tag, user, env.feed(user.id), d);
      }
    }
  }

  /**
   * Nothing new since the last scan (the feed is empty, or its newest post is older
   * than the watermark): no entry is recorded and nothing is fetched.
   */
  lemma NothingNewRecordsNothing(cfg: Config, env: Env, tag: string, user: User, items: seq<FeedItem>, d: map<string, DownloadedPost>)
    requires items == [] || (items[0].Item? && Before(items[0].post.createTime, user.lastUpdate))
    ensures ScanFeed(cfg, env, tag, user, items, d) == Scan(d, [], None)
  {
  }
}

=== FILE: wrappers.dfy ===
/** The optional value used for lookups that may find nothing and calls that may fail. */
module Wrappers {
  datatype Option<+T> = None | Some(value: T)
}
